=== FILE: README.md ===
# bilimbot web app: lesson, syllabus, progress and media-proxy logic in Dafny

This project models the client-side logic of the bilimbot Telegram Mini App. That is the web app in which a learner browses enrolled courses, opens lessons and takes quizzes. It covers five parts:

- **Lesson page** (`LessonView`). This is the quiz session: an answer vector with -1 for "unanswered", the shown question, the summary for an already completed quiz, submission and retake. It also covers the "Mark as Completed" and "Watch in Chat" actions and the order in which the page decides what to draw. Each handler is a pure transition that returns the new page state and the effects it emits: Telegram alerts and popups, closing the app, router navigation, and REST calls. The answers of the outside world arrive as events. An invariant over every run of events from the initial state shows that the shown question index always stays within the question list.
- **Syllabus page** (`Syllabus`). It gates lesson clicks on the server's `canOpen` and keeps the set of expanded modules: every module is expanded on load, and a click toggles one. It also covers the "Continue" action, the current lesson's title (first match in module order), the status and type icons, and the header notices and buttons for each enrollment status.
- **Progress page** (`Progress`). It computes the course counts, the lesson sums, the number of partly done courses, and the zero-guarded, rounded overall percentage. There is also a single-pass method proved equal to the separate folds, and the per-course bar.
- **Media-proxy URLs** (`MediaProxy`). Builds `{base}/media-proxy/public/{id}` and reads the id back with the pattern `/\/media-proxy\/(?:public\/)?(\d+)/`. The pattern is modelled as a leftmost match with the optional group tried first. Reading the id back is proved to invert building the URL for a positive numeric id, and for a string id that is a canonical numeral (digits without a leading zero), whenever the base URL does not itself contain `/media-proxy/`. Other ids do not come back as given. A negative id such as `-5` gives no match at all. A string id that starts with digits gives back the value of those digits: `12abc` reads as 12. A string id that starts with no digit gives no match, unless its text, together with the '/' before it, holds a `/media-proxy/` path of its own followed by digits.
- **Proxied image** (`ProxiedImage`). A state machine over `(imageSrc, isLoading, hasError)` that moves on a change of media id and on the browser's load and error events. It also covers what is drawn, and the URL of the background-image variant.

- **Progress screens** (`ProgressPage`). The spinner, the error screen with "Try Again", "No Courses Yet" and the statistics, as a state machine over the load's start and outcome. It shows the page as written and the corrected page side by side: see Findings.

Shared modules:

- `Api`: the record shapes of the back end's answers, with JavaScript truthiness made explicit.
- `Decimal`: the decimal text of integers and `parseInt` of a digit run.
- `WebApp`: effects and route paths.
- `Outline`: the module-by-module lesson lookup that both pages use.

Behaviours worth noting:

- **Dot navigation.** The quiz's "Next" button needs the current question answered. The question dots under the card, however, jump to any question whatever has been answered. `NavigationMoves` proves both.
- **Gating.** Lesson gating trusts the server. The client never checks `status` against `canOpen` (`GateTrustsServer`).
- **Empty quiz.** A quiz lesson whose question list is empty is drawn by reading its first question. The page then fails while rendering, which the model shows as the `RenderFault` screen. `NoFaultExceptEmptyQuiz` proves this is the only way that screen is reached.
- **A stray "0".** React draws the number 0 for `0 && x`. A current lesson id of 0 on the syllabus header, and a maximum-attempts count of 0 in the quiz summary, therefore show a bare "0" (`WebApp.NumberGuardText`, `Syllabus.ZeroCurrentLessonId`, `LessonView.ZeroLimitExample`).

## Model

Four members have no row of their own. Their behaviour is stated by the members that use them:

- `LessonView.Step`, the page's event dispatcher, by `LessonView.StepPreservesInv` and the handler rows.
- `LessonView.Render` by `LessonView.CompletionActions`, `LessonView.NoFaultExceptEmptyQuiz` and the other rendering rows.
- `Syllabus.CurrentLessonTitle` by `Syllabus.CurrentLessonTitleIsFirstMatch` and `Syllabus.CurrentLessonShown`.
- `MediaProxy.IsProxyUrl` by `MediaProxy.Includes`.

| member | source | states |
|---|---|---|
| Decimal.NatToString | src/pages/Syllabus.tsx:83 | The decimal text of a number has at least one digit, only digits, and a leading zero exactly for zero |
| Decimal.ParseNatToString | src/utils/mediaProxy.ts:69 | `parseInt` of the decimal text of `n` gives back `n` |
| Decimal.NatToStringParse | src/utils/mediaProxy.ts:69 | A digit string without a leading zero is the decimal text of its parsed value |
| Decimal.ParseIgnoresLeadingZero | src/utils/mediaProxy.ts:69 | Prefixing a zero does not change the value `parseInt` reads |
| Decimal.ParseIgnoresLeadingZeros | src/utils/mediaProxy.ts:69 | Prefixing any number of zeros does not change the value `parseInt` reads |
| Decimal.IntToStringSign | src/pages/Syllabus.tsx:83 | The text of an integer starts with '-' exactly when it is negative, followed by the text of its magnitude |
| Decimal.IntToStringInjective | src/pages/Syllabus.tsx:83 | Distinct integers render as distinct texts |
| WebApp.NumberGuardText | src/pages/LessonView.tsx:439 | `{n && text}` draws nothing for a missing number, the text "0" for zero, and the text otherwise |
| WebApp.LessonPathInjective | src/pages/Syllabus.tsx:83 | Within one course, a lesson path names exactly one lesson id |
| Api.ParseLessonType | src/lib/api.ts:129 | A lesson's `type` string maps to its own case exactly for the four known names, and any other string is kept as an unknown type |
| Api.LessonTypeNameRoundTrip | src/lib/api.ts:129 | The type string can be told back from the parsed type |
| Api.ParseCourseStatus | src/pages/Progress.tsx:51-53 | A course's `status` string is active exactly for "active" and completed exactly for "completed"; any other string is kept |
| Outline.IndexOf | src/pages/LessonView.tsx:61 | The position found is the first whose id matches; no position means no lesson has that id |
| Outline.FindAppend | src/pages/LessonView.tsx:60-66 | Searching two lesson lists one after the other equals searching their concatenation |
| Outline.FindLessonIsFirstInOutline | src/pages/Syllabus.tsx:108-111 | The module loop with `break` finds the first lesson with the id in the flattened outline, and finds nothing exactly when no lesson has it |
| Syllabus.LessonClick | src/pages/Syllabus.tsx:71-84 | A click navigates exactly when the lesson can be opened, and then only to that lesson's path. Otherwise it raises one alert, which is the locked text exactly for a locked lesson, and it never calls the server |
| Syllabus.LockedLessonNeverOpens | src/pages/Syllabus.tsx:74-81 | If the server keeps locked lessons unopenable, clicking a locked lesson never navigates |
| Syllabus.GateTrustsServer | src/pages/Syllabus.tsx:74 | A row that is locked yet openable is navigated to: the gate is `canOpen` alone |
| Syllabus.ClickTargetsThatLesson | src/pages/Syllabus.tsx:83 | Two openable lessons whose clicks give the same effects are the same lesson |
| Syllabus.Toggle | src/pages/Syllabus.tsx:54-64 | The toggled module's membership flips and no other module's changes |
| Syllabus.ToggleTwice | src/pages/Syllabus.tsx:54-64 | Toggling a module twice restores the expanded set |
| Syllabus.ToggleCommutes | src/pages/Syllabus.tsx:54-64 | Toggles of two modules can be applied in either order |
| Syllabus.ModuleIds | src/pages/Syllabus.tsx:44 | The set holds the id of every module and nothing else |
| Syllabus.ExpandedAfterLoad | src/pages/Syllabus.tsx:38-51 | A successful load expands exactly the loaded modules' ids: every module is in the set and every member of the set is a module. A failed one leaves the set alone |
| Syllabus.ToggleAfterLoadCollapses | src/pages/Syllabus.tsx:44-45 | Right after a load, one click on any module collapses it |
| Syllabus.Continue | src/pages/Syllabus.tsx:66-69 | "Continue" navigates exactly when an outline is loaded and names a truthy current lesson, and then to that lesson's path; otherwise it does nothing |
| Syllabus.CurrentLessonTitleIsFirstMatch | src/pages/Syllabus.tsx:105-113 | The title is that of the first lesson in module order with the current id. There is none exactly when the id is falsy or matches no lesson |
| Syllabus.StatusIconOf | src/pages/Syllabus.tsx:86-92 | Each of the four statuses has its own icon, and each icon stands for one status |
| Syllabus.TypeIconOf | src/pages/Syllabus.tsx:94-103 | Video, file and quiz lessons have their own icons; text and unknown types share the text icon |
| Syllabus.TypeIconOfName | src/pages/Syllabus.tsx:94-103 | On the type string itself: "video", "file" and "quiz" get their own icons, and every other string the text icon |
| Syllabus.StatusIconInjective | src/pages/Syllabus.tsx:86-92 | The status can be read back from its icon |
| Syllabus.HeaderFor | src/pages/Syllabus.tsx:157-195 | Each notice and button appears exactly for its enrollment status; "Continue" and "Review" depend on the current lesson id's truthiness. An active learner reads "Course completed!" exactly when the current lesson's title is missing or empty, and otherwise "Currently at" with that non-empty title. A stray "0" is drawn exactly for an active learner whose current lesson id is 0 |
| Syllabus.HeaderActionsExclusive | src/pages/Syllabus.tsx:183-195 | An active learner sees exactly one of "Continue" and "Review", and nobody else sees either. A completed enrollment shows an empty header |
| Syllabus.ContinueButtonAgreesWithHandler | src/pages/Syllabus.tsx:66-69 | For an active learner the "Continue" button is shown exactly when its handler navigates |
| Syllabus.CurrentLessonShown | src/pages/Syllabus.tsx:157-188 | For an active learner, a truthy current lesson id whose first matching row has a non-empty title yields "Currently at" with that title, the "Continue" button and no stray "0" |
| Syllabus.EmptyTitleReadsCompleted | src/pages/Syllabus.tsx:105-113 | A current lesson whose first matching row has an empty title reads "Course completed!" although "Continue" is shown |
| Syllabus.DanglingCurrentLesson | src/pages/Syllabus.tsx:159-188 | For an active learner, any truthy current lesson id that matches no row shows "Course completed!" beside the "Continue" button |
| Syllabus.ZeroCurrentLessonId | src/pages/Syllabus.tsx:183-195 | A current lesson id of 0 is falsy: the header reads "Course completed!", offers "Review" and not "Continue", and draws a stray "0" |
| Progress.RoundedPercent | src/pages/Progress.tsx:62-64 | The result is the integer nearest to 100c/t, with halves rounded up, and 0 when there are no lessons |
| Progress.RoundedPercentInRange | src/pages/Progress.tsx:62-64 | A share between none and all rounds to a percentage in [0, 100] |
| Progress.StatusCountsBounded | src/pages/Progress.tsx:51-53 | Completed and active courses together never outnumber the course list |
| Progress.PartlyDoneBounded | src/pages/Progress.tsx:57-60 | At most one "in progress" tick per course |
| Progress.SumsOrdered | src/pages/Progress.tsx:55-56 | With consistent per-course counts, the completed sum lies between 0 and the total sum |
| Progress.OverallInRange | src/pages/Progress.tsx:55-64 | With consistent per-course counts, the overall percentage lies in [0, 100] |
| Progress.Statistics | src/pages/Progress.tsx:51-64 | The statistics count every course, bound the status and partly-done counts, and round the overall percentage correctly |
| Progress.ComputeStatistics | src/pages/Progress.tsx:51-74 | One pass over the list yields exactly the statistics of the separate filters and folds |
| Progress.BarWidth | src/pages/Progress.tsx:84 | The bar width is `completed / total` of 100%, and zero when the course has no lessons |
| Progress.BarLabel | src/pages/Progress.tsx:93 | The label is the bar width rounded to the nearest whole percent |
| Progress.EmptyCourseBar | src/pages/Progress.tsx:83-93 | A course without lessons shows an empty bar labelled 0% |
| Progress.HalfDoneExample | src/pages/Progress.tsx:55-64 | Two of four lessons done fill half the bar and read 50% |
| MediaProxy.Includes | src/utils/mediaProxy.ts:58-60 | The scan answers true exactly when the pattern occurs at some position |
| MediaProxy.MediaProxyUrl | src/utils/mediaProxy.ts:15-20 | The URL is empty exactly for a falsy id; otherwise it is the base, the public proxy path and the id's text |
| MediaProxy.ImageProxyUrl | src/utils/mediaProxy.ts:28-37 | The size argument has no effect: the image URL is the media URL |
| MediaProxy.DigitRun | src/utils/mediaProxy.ts:68 | The greedy `\d+` takes the longest digit prefix |
| MediaProxy.MatchAt | src/utils/mediaProxy.ts:68 | A match at a position needs `/media-proxy/` there. It captures the maximal digit run that starts right after `public/` when digits follow it, and right after `/media-proxy/` otherwise. No match means no such digit |
| MediaProxy.FirstMatch | src/utils/mediaProxy.ts:68 | The position found is the leftmost at which the pattern matches |
| MediaProxy.ExtractMediaId | src/utils/mediaProxy.ts:67-70 | No id means no match anywhere. An id means the URL is a proxy URL and the id is the value of the leftmost match's digits |
| MediaProxy.ProxyUrlIsRecognised | src/utils/mediaProxy.ts:15-20 | Every URL built for a truthy id is recognised as a proxy URL |
| MediaProxy.NoMatchInCleanBase | src/utils/mediaProxy.ts:68 | No match starts inside a base URL without `/media-proxy/`, not even one straddling the appended path |
| MediaProxy.DigitRunOfDigits | src/utils/mediaProxy.ts:68 | A digit string is consumed whole |
| MediaProxy.MatchAtAppendedPath | src/utils/mediaProxy.ts:68 | The pattern matches at the appended path and captures the digits after `public/` |
| MediaProxy.DigitRunStopsAtNonDigit | src/utils/mediaProxy.ts:68 | The greedy `\d+` stops at the first non-digit: a digit string followed by a non-digit is its own run |
| MediaProxy.MatchAtAppendedRun | src/utils/mediaProxy.ts:68 | At the appended path, the pattern captures the digit run that begins the id's text, whatever follows it |
| MediaProxy.LeftmostMatchAt | src/utils/mediaProxy.ts:67-70 | The id read is that of the first position that matches |
| MediaProxy.ExtractAfterCleanBase | src/utils/mediaProxy.ts:67-70 | Behind a clean base, the id read is the value of the appended digits |
| MediaProxy.ExtractLeadingDigits | src/utils/mediaProxy.ts:67-70 | Behind a clean base, an id whose text starts with digits reads back as the value of those digits, whatever follows them |
| MediaProxy.StringIdReadsLeadingDigits | src/utils/mediaProxy.ts:67-70 | The string id `12abc` reads back as 12 |
| MediaProxy.ExtractRoundTrip | src/utils/mediaProxy.ts:15-20 | Round trip: reading the id from the URL of a positive numeric id gives that id back, for a base without `/media-proxy/` |
| MediaProxy.RebuildFromExtracted | src/utils/mediaProxy.ts:67-70 | Rebuilding the URL from the id read gives the same URL, for a canonical numeral id |
| MediaProxy.CaptureIsRunAtStart | src/utils/mediaProxy.ts:68 | The digits an attempt captures, with the optional group tried first and then skipped, are the digit run at the capture start |
| MediaProxy.PublicDigitsAreTriedFirst | src/utils/mediaProxy.ts:68 | When `public/` and a digit follow `/media-proxy/`, the optional group is taken and the digit run after it is non-empty |
| MediaProxy.ExtractDropsLeadingZeros | src/utils/mediaProxy.ts:69 | Any number of leading zeros in the URL do not reach the id read |
| MediaProxy.SingleDigitCapture | src/utils/mediaProxy.ts:68 | A `/media-proxy/` followed by one digit and a '/' captures that digit alone, without `public/` |
| MediaProxy.RoundTripNeedsCleanBase | src/utils/mediaProxy.ts:68 | With a base that already holds a proxy path, the id read is the base's, not the one appended |
| MediaProxy.DefaultBaseIsClean | src/utils/mediaProxy.ts:8 | The default base URL has no proxy path, so the round trip holds for it |
| MediaProxy.UnconfiguredBaseRoundTrip | src/utils/mediaProxy.ts:8-20 | Without a non-empty configured API URL the default base is used, and positive numeric ids round-trip through it |
| ProxiedImage.OnMediaId | src/components/ProxiedImage.tsx:40-50 | A falsy id marks an error, stops loading and keeps the old source. A truthy id starts loading its proxy URL with no error |
| ProxiedImage.OnLoad | src/components/ProxiedImage.tsx:52-55 | A load ends loading and changes nothing else |
| ProxiedImage.OnError | src/components/ProxiedImage.tsx:57-62 | An error ends loading, marks the error and switches to the fallback |
| ProxiedImage.Render | src/components/ProxiedImage.tsx:64-90 | Nothing is drawn exactly when the id is falsy and there is no fallback. The spinner and the hidden image go together. "Image not available" appears exactly on an error without fallback |
| ProxiedImage.DefaultFallbackAlwaysDraws | src/components/ProxiedImage.tsx:34-90 | With the fallback prop left out a frame is always drawn and never "Image not available"; an explicit empty fallback with a falsy id draws nothing |
| ProxiedImage.ErrorNeverWhileLoading | src/components/ProxiedImage.tsx:40-62 | Across any run of events the error notice is never shown with the spinner |
| ProxiedImage.SourceAfterTruthyId | src/components/ProxiedImage.tsx:47-62 | After a truthy id, the source is that id's proxy URL until an error, and the fallback after one |
| ProxiedImage.SourceAfterTruthyIdFrom | src/components/ProxiedImage.tsx:52-62 | Load and error events keep that source invariant |
| ProxiedImage.StaleSourceAfterFalsyId | src/components/ProxiedImage.tsx:41-45 | A falsy id after a truthy one keeps drawing the earlier image although the error flag is set |
| ProxiedImage.BackgroundUrl | src/components/ProxiedImage.tsx:118-122 | A truthy id sets its non-empty proxy URL; a falsy id keeps the current URL |
| ProxiedImage.BackgroundImage | src/components/ProxiedImage.tsx:126 | No background image exactly while the URL is empty; otherwise a CSS `url(...)` of it |
| ProxiedImage.NoBackgroundWithoutTruthyId | src/components/ProxiedImage.tsx:116-126 | A component that only ever saw falsy ids draws no background |
| LessonView.FreshAnswers | src/pages/LessonView.tsx:76 | The new answer vector has one unanswered slot per question |
| LessonView.SomeUnanswered | src/pages/LessonView.tsx:143 | True exactly when some answer is still -1 |
| LessonView.PrepareQuiz | src/pages/LessonView.tsx:71-79 | An uncompleted quiz starts over with all slots unanswered and no summary. A completed one shows the summary and keeps the answers. A lesson without questions is untouched |
| LessonView.MetaAfterLoad | src/pages/LessonView.tsx:57-69 | The quiz metadata is the outline's first row with the lesson id; it stays as before when the outline fails or has no such row |
| LessonView.FinishLoad | src/pages/LessonView.tsx:44-86 | A failed fetch only records "Failed to load lesson". A success stores the lesson, takes the quiz metadata from the outline's first row with the lesson id, and prepares the quiz without clearing an earlier error. Loading ends either way |
| LessonView.SelectAnswer | src/pages/LessonView.tsx:133-137 | Choosing an option changes exactly the chosen question's slot |
| LessonView.SubmitQuiz | src/pages/LessonView.tsx:139-151 | Without questions nothing happens. With an unanswered slot there is only the alert and no request. Otherwise the answers are sent unchanged and the submission is marked in flight |
| LessonView.FinishSubmit | src/pages/LessonView.tsx:151-157 | The submission ends; a result is kept on success and the answers survive a failure. Nothing else in the page state changes |
| LessonView.RetakeReset | src/pages/LessonView.tsx:169-180 | A successful retake clears the result and summary, returns to the first question with fresh answers when the lesson has questions, and reloads. The answers of a lesson without questions and everything else in the page state stay as they were |
| LessonView.WatchVideoEnd | src/pages/LessonView.tsx:120-130 | On success the page closes the app inside Telegram and does nothing outside it. The app closes only on success inside Telegram. A failure raises one "Error: ..." alert, and never navigates or calls the server |
| LessonView.WatchVideoStart | src/pages/LessonView.tsx:106-120 | Inside Telegram a "sending" popup comes first. Then exactly one video request for this lesson is made, and the app neither closes nor navigates yet |
| LessonView.VideoErrorPreference | src/pages/LessonView.tsx:128 | The error text is the server's message, else the error's own message, else the default text, and is never empty |
| LessonView.InitialInv | src/pages/LessonView.tsx:12-24 | The initial page state satisfies the invariant |
| LessonView.ShownFlowInRange | src/pages/LessonView.tsx:466-492 | Under the invariant a shown question card reads an existing question and answer slot |
| LessonView.NoFaultExceptEmptyQuiz | src/pages/LessonView.tsx:472-477 | Under the invariant the question card can only fail for a quiz with no questions |
| LessonView.NavigationPreservesInv | src/pages/LessonView.tsx:477-531 | Choosing an option or moving between questions keeps the invariant |
| LessonView.StepPreservesInv | src/pages/LessonView.tsx:44-188 | Every event keeps the invariant |
| LessonView.RunPreservesInv | src/pages/LessonView.tsx:44-188 | Every run of events keeps the invariant |
| LessonView.ReachableFlowInRange | src/pages/LessonView.tsx:466-531 | On every reachable page the shown question index lies in [0, n-1] |
| LessonView.LoadInitialisesQuiz | src/pages/LessonView.tsx:71-79 | Loading an uncompleted quiz gives fresh answers sized to its questions and hides the summary; a completed quiz shows it |
| LessonView.FlowButtons | src/pages/LessonView.tsx:494-533 | "Previous" appears past the first question, "Next" before the last. "Next" is enabled once the current question is answered, and "Submit" once all are answered and nothing is in flight. The selected option is the recorded answer, and the dot of each question is marked answered exactly when its slot is |
| LessonView.NavigationMoves | src/pages/LessonView.tsx:494-531 | The buttons move the index by one, and "Next" only from an answered question. A dot jumps to any question. The index stays in range and the answers are unchanged |
| LessonView.ChoosingRecordsOnlyCurrent | src/pages/LessonView.tsx:476-490 | Choosing an option records it for the shown question only |
| LessonView.SubmitSendsAnswers | src/pages/LessonView.tsx:139-151 | A request leaves only when every question is answered, and it carries exactly the answers |
| LessonView.RetakeThenReload | src/pages/LessonView.tsx:164-188 | After a retake and reload there is no result and the first question is shown. The server's status decides again whether the summary appears, and an uncompleted quiz gets fresh answers |
| LessonView.ResultTakesPriority | src/pages/LessonView.tsx:190-245 | A result on hand is drawn before any lesson content, with its own score and percentage |
| LessonView.CompletionActions | src/pages/LessonView.tsx:259-417 | "Mark as Completed" appears exactly on an uncompleted text, file or playable video lesson. "Watch in Chat" appears exactly on a video lesson without a URL. Never both |
| LessonView.RetakeMessage | src/pages/LessonView.tsx:443-457 | The retake button appears exactly when the server allows it. "Maximum attempts reached" appears exactly when both counts are truthy and used up; the other message covers the rest |
| LessonView.RetakeMessageUnderServerRule | src/pages/LessonView.tsx:443-456 | Under the server's retake rule, a used-up positive limit reads "Maximum attempts reached", and retakes disabled with attempts left read "not allowed" |
| LessonView.MaxAttemptsExample | src/pages/LessonView.tsx:452-455 | Two of two attempts used with no retake reads "Maximum attempts reached" |
| LessonView.SubmitEnabledExample | src/pages/LessonView.tsx:504-519 | On the last of three questions, "Submit" is disabled with nothing answered and enabled for answers [1, 0, 2] |
| LessonView.BackNavigation | src/pages/LessonView.tsx:160-162 | The result screen leads back to the syllabus, and the question flow offers no such button |
| LessonView.TelegramBackNavigation | src/pages/LessonView.tsx:30-34 | Inside Telegram, pressing the back button on the lesson page leads to the course page |
| LessonView.CompleteFlow | src/pages/LessonView.tsx:88-104 | "Mark as Completed" sends one completion request and is ignored while one is in flight. On success an alert is followed by navigation to the course page, and on failure nothing is shown. Either way the button is usable again |
| LessonView.SummaryLines | src/pages/LessonView.tsx:424-457 | The summary shows the last score exactly when the server gives one. The attempts line appears exactly when the used count is given. It ends in " / max" for a truthy limit, in a bare "0" for a limit of 0, and in nothing without a limit |
| LessonView.ZeroLimitExample | src/pages/LessonView.tsx:436-457 | A limit of 0 with three attempts used and no retake draws "0" after the count and reads "not allowed" |
| LessonView.CompletedQuizWithoutMeta | src/pages/LessonView.tsx:420-466 | A completed quiz whose outline row could not be loaded shows neither the summary nor the questions |
| LessonView.VideoClosesOnlyOnSuccess | src/pages/LessonView.tsx:120-130 | Inside Telegram the app closes exactly when the video request succeeded; a failure shows one alert |
| ProgressPage.View | src/pages/Progress.tsx:98-130 | The spinner shows exactly while loading. Otherwise the error screen shows exactly when an error is stored, with that message. "No Courses Yet" shows exactly when there is no error and either no statistics or an empty list. The statistics screen shows the stored statistics of a non-empty list |
| ProgressPage.StepAsWritten | src/pages/Progress.tsx:43-81 | As written, a load never clears a stored error: once set, it stays set. A load stores the list and its statistics on success, and the fixed failure message on failure |
| ProgressPage.Step | src/pages/Progress.tsx:43-81 | The corrected load: its start clears the error and shows the spinner. Success stores the list and its statistics. Failure stores the fixed message and keeps the old data |
| ProgressPage.InitialInv | src/pages/Progress.tsx:21-24 | The page opens on the spinner, with no list and no statistics |
| ProgressPage.StepPreservesInv | src/pages/Progress.tsx:47-73 | On both versions, the stored statistics are always the statistics of the stored list |
| ProgressPage.DashboardShowsStatistics | src/pages/Progress.tsx:119-133 | The statistics screen always shows the statistics of the list on the page |
| ProgressPage.LoadShowsOutcome | src/pages/Progress.tsx:43-130 | On the corrected page, a load ends on the screen its outcome picks, whatever came before. A failure shows the error, and an empty list shows "No Courses Yet". Any other list shows its statistics |
| ProgressPage.RetryShowsNewList | src/pages/Progress.tsx:107-115 | On the corrected page, "Try Again" after a failure shows the statistics of the new list |
| ProgressPage.RetryKeepsErrorAsWritten | src/pages/Progress.tsx:43-81 | As written, once an error is stored, no number of retries leaves the error screen, whatever the server answers |
| ProgressPage.RetryAfterFailureAsWritten | src/pages/Progress.tsx:107-115 | As written, a failed load followed by "Try Again" that gets one course shows the error screen again |

## Left out

- HTTP, authentication and the API client (`src/lib/api.ts` beyond its record shapes): each request is an abstract effect, and its outcome is an event or a parameter.
- `src/lib/telegram.ts` is not part of this model. Telegram presence is a boolean, and `showPopup`, `showAlert`, `close` and the back button are abstract effects. Whatever the SDK does with a popup that has no buttons is not modelled.
- The Syllabus and Progress pages' Telegram back buttons, and the Syllabus page's loading and error screens: the buttons only navigate to `/`, and the screens show a fixed text (the error text, or "Course not found"). The Progress page's screens are modelled in `ProgressPage`: its "Try Again" button re-runs the load, and its "No Courses Yet" screen is shown for an empty list. Only that screen's "Browse Courses" button is left out, because it only navigates to `/`.
- Route parameters: `courseId` is kept as the text in the address, and `lessonId` as the integer `parseInt` gives. The early return when a parameter is missing is not modelled.
- Asynchrony: the model serialises handlers. It does not model a response arriving after the route changed, or two loads racing.
- JavaScript numbers: counts and ids are unbounded integers. There is no floating-point rounding, and nothing above 2^53.
- Progress.RoundedPercent / Progress.BarLabel: the model rounds 100c/t exactly, halves up, while the page computes `Math.round((c / t) * 100)` in doubles. The two can differ by one: for 23 of 40 lessons `(23 / 40) * 100` is 57.49999999999999, so the page shows 57% where the model gives 58. The same happens for 29 of 200 (14 against 15) and 57 of 200 (28 against 29). The bar width itself is an exact ratio in the model and a CSS percentage on the page.
- LessonView.SelectAnswer: it requires the index to be within the answer vector. JavaScript would silently extend the array, but the page only ever passes the shown question's index, which the invariant keeps in range.
- Progress.BarWidth: gives the exact ratio rather than a floating-point CSS width.
- The `onLoad` and `onError` callback props of the proxied image: they are optional calls into the parent with no result, so the events are modelled but the calls are not.
- The back-button cleanup on the lesson and syllabus pages: `offClick` is given a new closure, not the one passed to `onClick`, so if the SDK removes handlers by reference they are never removed. The model binds the back button to the course page only while the lesson page is shown, and does not model handlers left over from earlier pages.
- Lesson rows' decorations (current badge, quiz score, arrow), resources lists, descriptions and other purely presentational markup.
- `preloadImage` (browser image loading), `AppContext`, `Home`, `CourseDetail`, `Certificates`, `Help` and `Settings`: outside the modelled core.
- The server's derivation of `status`, `canOpen`, `isCurrent` and `canRetake`: the client only reads these. `Outline.LockedNeverOpens` and `RetakeMessageUnderServerRule` state the server's promises as hypotheses.

## Findings

| source | as written | input that shows it | evidently intended | confidence | as-written member | corrected member |
|---|---|---|---|---|---|---|
| src/pages/Progress.tsx:43-115 | `loadProgress` sets `loading` but never clears `error`, and nothing else on the page clears it. The error screen is tested before the statistics | The first load fails. "Try Again" is pressed and the server now answers one course. The error screen is drawn again, and stays for every later retry | A load starts from a cleared error, so a successful retry shows the new statistics | high; not executed | ProgressPage.StepAsWritten, ProgressPage.RetryKeepsErrorAsWritten, ProgressPage.RetryAfterFailureAsWritten | ProgressPage.Step, ProgressPage.LoadShowsOutcome, ProgressPage.RetryShowsNewList |

=== FILE: api.dfy ===
/**
 * Shapes of the records the web-app back end returns, as the client's API
 * layer declares them (src/lib/api.ts). The `type`, `status` and
 * `enrollmentStatus` strings become closed variants; where the declared
 * type is a plain string, an extra variant carries any other value.
 * Optional and nullable fields become `Option`.
 */
module Api {

  datatype Option<+T> = None | Some(value: T)

  /** JavaScript truthiness of an optional number: present and not zero. */
  predicate TruthyNumber(o: Option<int>) {
    o.Some? && o.value != 0
  }

  /** JavaScript truthiness of an optional string: present and not empty. */
  predicate TruthyText(o: Option<string>) {
    o.Some? && o.value != ""
  }

  /** JavaScript truthiness of an optional boolean. */
  predicate TruthyFlag(o: Option<bool>) {
    o.Some? && o.value
  }

  /** A lesson's `type`. `OtherType` stands for a string besides the four
      known ones, and only `ParseLessonType` builds it. */
  datatype LessonType = Text | Video | File | Quiz | OtherType(name: string)

  /** The four type names the server sends. */
  predicate KnownTypeName(s: string) {
    s == "text" || s == "video" || s == "file" || s == "quiz"
  }

  /** The `type` string as received: a known name is its own case, any other
      string is kept as `OtherType`. */
  function ParseLessonType(s: string): (t: LessonType)
    ensures t.OtherType? <==> !KnownTypeName(s)
    ensures t.OtherType? ==> t.name == s
    ensures t == Text <==> s == "text"
    ensures t == Video <==> s == "video"
    ensures t == File <==> s == "file"
    ensures t == Quiz <==> s == "quiz"
  {
    if s == "text" then Text
    else if s == "video" then Video
    else if s == "file" then File
    else if s == "quiz" then Quiz
    else OtherType(s)
  }

  /** The string a lesson type is sent as. */
  function LessonTypeName(t: LessonType): string {
    match t
    case Text => "text"
    case Video => "video"
    case File => "file"
    case Quiz => "quiz"
    case OtherType(name) => name
  }

  /** Reading a type string keeps it: the string can be told back from the type. */
  lemma LessonTypeNameRoundTrip(s: string)
    ensures LessonTypeName(ParseLessonType(s)) == s
  {
  }

  /** A lesson's display status, computed by the server. */
  datatype LessonStatus = Locked | NotStarted | InProgress | Completed

  datatype EnrollmentStatus = NotEnrolled | Active | Blocked | EnrollmentCompleted

  /** `status` of an enrolled course in the course list (a plain string on the
      wire). `OtherCourseStatus` stands for a string other than "active" and
      "completed", and only `ParseCourseStatus` builds it. */
  datatype CourseStatus = CourseActive | CourseCompleted | OtherCourseStatus(name: string)

  /** The `status` string as received. */
  function ParseCourseStatus(s: string): (st: CourseStatus)
    ensures st == CourseActive <==> s == "active"
    ensures st == CourseCompleted <==> s == "completed"
    ensures st.OtherCourseStatus? ==> st.name == s
  {
    if s == "active" then CourseActive
    else if s == "completed" then CourseCompleted
    else OtherCourseStatus(s)
  }

  /** One lesson row of the course outline; `canOpen`, `isCurrent`, `status` and
      the quiz fields are server-derived and only read by the client. */
  datatype LessonOutlineItem = LessonOutlineItem(
    id: int,
    title: string,
    order: int,
    lessonType: LessonType,
    status: LessonStatus,
    isCurrent: bool,
    canOpen: bool,
    isQuiz: bool,
    attemptsUsed: Option<int>,
    maxAttempts: Option<int>,
    canRetake: Option<bool>,
    lastScore: Option<int>,
    lastScorePercent: Option<int>)

  datatype ModuleOutlineItem = ModuleOutlineItem(
    id: int,
    title: string,
    order: int,
    progressPercent: int,
    lessons: seq<LessonOutlineItem>)

  datatype CourseOutline = CourseOutline(
    courseId: int,
    title: string,
    description: Option<string>,
    totalLessons: int,
    completedLessons: int,
    completionPercent: int,
    currentLessonId: Option<int>,
    nextLessonId: Option<int>,
    allowRetakeQuiz: bool,
    maxQuizAttempts: Option<int>,
    isDrip: bool,
    dripIntervalDays: Option<int>,
    enrollmentStatus: EnrollmentStatus,
    modules: seq<ModuleOutlineItem>)

  datatype QuizQuestion = QuizQuestion(question: string, options: seq<string>, points: int)

  datatype Resource = Resource(kind: string, caption: string, url: string)

  datatype LessonDetail = LessonDetail(
    id: int,
    title: string,
    lessonType: LessonType,
    description: Option<string>,
    text: Option<string>,
    videoUrl: Option<string>,
    resources: Option<seq<Resource>>,
    questions: Option<seq<QuizQuestion>>,
    canPlayInWebapp: bool,
    status: LessonStatus)

  datatype QuestionResult = QuestionResult(
    questionIndex: int,
    selectedAnswer: int,
    correctAnswer: int,
    correct: bool,
    points: int)

  datatype QuizResult = QuizResult(
    score: int,
    totalScore: int,
    percentage: int,
    results: seq<QuestionResult>,
    completedLessons: int,
    totalLessons: int,
    courseCompleted: bool)

  datatype CourseWithProgress = CourseWithProgress(
    id: int,
    title: string,
    description: Option<string>,
    enrollmentId: int,
    completedLessons: int,
    totalLessons: int,
    status: CourseStatus)
}

=== FILE: decimal.dfy ===
/**
 * Decimal text of integers, as a JavaScript template literal renders an
 * integral number (`${n}`), and its inverse `parseInt(s, 10)` on a run of
 * ASCII digits.
 */
module Decimal {

  predicate IsDigit(c: char) {
    '0' <= c <= '9'
  }

  predicate AllDigits(s: string) {
    forall i | 0 <= i < |s| :: IsDigit(s[i])
  }

  function DigitValue(c: char): (d: nat)
    requires IsDigit(c)
    ensures d < 10
  {
    c as int - '0' as int
  }

  function DigitChar(d: nat): (c: char)
    requires d < 10
    ensures IsDigit(c) && DigitValue(c) == d
  {
    (d + '0' as int) as char
  }

  /** Decimal text of `n`: at least one digit, and no leading zero unless `n` is zero. */
  function NatToString(n: nat): (s: string)
    ensures |s| >= 1 && AllDigits(s)
    ensures s[0] == '0' <==> n == 0
    decreases n
  {
    if n < 10 then [DigitChar(n)] else NatToString(n / 10) + [DigitChar(n % 10)]
  }

  /** `${i}` for an integral number: a minus sign before the magnitude when negative. */
  function IntToString(i: int): (s: string)
  {
    if i < 0 then "-" + NatToString(-i) else NatToString(i)
  }

  /** `parseInt(s, 10)` on a string of digits: the digits read as a base-ten numeral. */
  function ParseDigits(s: string): (n: nat)
    requires AllDigits(s)
    decreases |s|
  {
    if s == [] then 0 else 10 * ParseDigits(s[..|s| - 1]) + DigitValue(s[|s| - 1])
  }

  /** Reading back the decimal text of a natural number gives the number. */
  lemma {:induction false} ParseNatToString(n: nat)
    ensures ParseDigits(NatToString(n)) == n
    decreases n
  {
    var s := NatToString(n);
    if n >= 10 {
      ParseNatToString(n / 10);
      assert s[..|s| - 1] == NatToString(n / 10);
    } else {
      assert s[..|s| - 1] == [];
    }
  }

  /** A digit string without leading zero is exactly the decimal text of its value. */
  lemma {:induction false} NatToStringParse(s: string)
    requires |s| >= 1 && AllDigits(s) && (s[0] == '0' ==> |s| == 1)
    ensures NatToString(ParseDigits(s)) == s
    decreases |s|
  {
    var last := s[|s| - 1];
    var d := DigitValue(last);
    assert DigitChar(d) == last;
    if |s| > 1 {
      var p := s[..|s| - 1];
      NatToStringParse(p);
      var m := ParseDigits(p);
      assert m != 0 by {
        assert NatToString(m)[0] == p[0] == s[0];
      }
      var n := ParseDigits(s);
      assert n == 10 * m + d;
      assert n / 10 == m && n % 10 == d;
    }
  }

  /** `parseInt` ignores leading zeros. */
  lemma {:induction false} ParseIgnoresLeadingZero(s: string)
    requires AllDigits(s)
    ensures AllDigits("0" + s) && ParseDigits("0" + s) == ParseDigits(s)
    decreases |s|
  {
    var z := "0" + s;
    if s != [] {
      ParseIgnoresLeadingZero(s[..|s| - 1]);
      assert z[..|z| - 1] == "0" + s[..|s| - 1];
    } else {
      assert z[..|z| - 1] == [];
    }
  }

  /** `k` zero digits. */
  function Zeros(k: nat): (z: string)
    ensures |z| == k && AllDigits(z)
    ensures forall i | 0 <= i < k :: z[i] == '0'
  {
    seq(k, _ => '0')
  }

  /** `parseInt` ignores any number of leading zeros. */
  lemma {:induction false} ParseIgnoresLeadingZeros(k: nat, s: string)
    requires AllDigits(s)
    ensures AllDigits(Zeros(k) + s) && ParseDigits(Zeros(k) + s) == ParseDigits(s)
    decreases k
  {
    if k > 0 {
      ParseIgnoresLeadingZeros(k - 1, s);
      assert Zeros(k) + s == "0" + (Zeros(k - 1) + s);
      ParseIgnoresLeadingZero(Zeros(k - 1) + s);
    } else {
      assert Zeros(k) + s == s;
    }
  }

  /** The text of an integer starts with '-' exactly when it is negative, and
      the rest is then the text of its magnitude. */
  lemma IntToStringSign(i: int)
    ensures |IntToString(i)| >= 1
    ensures IntToString(i)[0] == '-' <==> i < 0
    ensures i < 0 ==> IntToString(i)[1..] == NatToString(-i)
    ensures i >= 0 ==> IntToString(i) == NatToString(i)
  {
    if i >= 0 {
      assert IsDigit(NatToString(i)[0]);
    }
  }

  /** Distinct integers have distinct decimal texts. */
  lemma IntToStringInjective(a: int, b: int)
    requires IntToString(a) == IntToString(b)
    ensures a == b
  {
    IntToStringSign(a);
    IntToStringSign(b);
    var m, n := if a < 0 then -a else a, if b < 0 then -b else b;
    assert (a < 0) == (b < 0);
    assert NatToString(m) == NatToString(n);
    ParseNatToString(m);
    ParseNatToString(n);
  }
}

=== FILE: lesson_view.dfy ===
/**
 * The lesson page (src/pages/LessonView.tsx), read as a state machine: each
 * `setState` is a field update, each handler a transition, and each
 * Telegram, router or REST call an emitted effect. The outside world's
 * answers arrive as events (`LoadDone`, `SubmitDone`, ...).
 *
 * The quiz session keeps an answer vector with the sentinel -1 for
 * "unanswered", the index of the shown question, and the flags
 * `showQuizSummary`, `quizResult`, `submittingQuiz` and `retaking`.
 */
module LessonView {
  import opened Api
  import opened Decimal
  import opened WebApp
  import Outline

  const Unanswered: int := -1

  const LoadFailedMessage: string := "Failed to load lesson"
  const NotFoundMessage: string := "Lesson not found"
  const AnswerAllMessage: string := "Please answer all questions before submitting."
  const RetakeFailedMessage: string := "Failed to start quiz retake. Please try again."
  const CompletedMessage: string := "\U{2705} Lesson completed!"
  const VideoDefaultError: string := "Failed to send video. Please try again."

  /** `new Array(n).fill(-1)`. */
  function FreshAnswers(n: nat): (a: seq<int>)
    ensures |a| == n && forall i | 0 <= i < n :: a[i] == Unanswered
  {
    seq(n, _ => Unanswered)
  }

  /** `answers.some((a) => a === -1)`, scanning from the front. */
  function SomeUnanswered(a: seq<int>): (r: bool)
    ensures r <==> exists i | 0 <= i < |a| :: a[i] == Unanswered
    decreases |a|
  {
    if a == [] then false
    else if a[0] == Unanswered then true
    else
      var r := SomeUnanswered(a[1..]);
      assert r ==> exists i | 0 <= i < |a| :: a[i] == Unanswered by {
        if r {
          var i :| 0 <= i < |a[1..]| && a[1..][i] == Unanswered;
          assert a[i + 1] == Unanswered;
        }
      }
      assert (exists i | 0 <= i < |a| :: a[i] == Unanswered) ==> r by {
        if exists i | 0 <= i < |a| :: a[i] == Unanswered {
          var i :| 0 <= i < |a| && a[i] == Unanswered;
          assert a[1..][i - 1] == Unanswered;
        }
      }
      r
  }

  datatype QuizSession = QuizSession(
    answers: seq<int>,
    current: int,
    result: Option<QuizResult>,
    submitting: bool,
    retaking: bool,
    showSummary: bool)

  datatype View = View(
    lesson: Option<LessonDetail>,
    meta: Option<LessonOutlineItem>,
    loading: bool,
    error: Option<string>,
    completing: bool,
    quiz: QuizSession)

  const Initial: View := View(None, None, true, None, false, QuizSession([], 0, None, false, false, false))

  /** What the page knows about its surroundings: whether it runs inside
      Telegram, and the route's course and lesson ids. */
  datatype Env = Env(tg: bool, courseId: string, lessonId: int)

  datatype LessonFetch = FetchFailed | Fetched(detail: LessonDetail)

  // ---------------------------------------------------------------- loading

  /** Quiz set-up at the end of a successful load: an uncompleted quiz starts
      over with every answer unanswered; a completed one shows its summary and
      keeps the answers it had. */
  function PrepareQuiz(q: QuizSession, d: LessonDetail): (r: QuizSession)
    ensures d.questions.Some? && d.status != Completed ==>
      && r.answers == FreshAnswers(|d.questions.value|)
      && !r.showSummary
    ensures d.questions.Some? && d.status == Completed ==> r.showSummary && r.answers == q.answers
    ensures d.questions.None? ==> r == q
    ensures r.(answers := q.answers, showSummary := q.showSummary) == q
  {
    if d.questions.None? then q
    else if d.status == Completed then q.(showSummary := true)
    else q.(answers := FreshAnswers(|d.questions.value|), showSummary := false)
  }

  /** The quiz metadata after a load: the first outline row with the lesson's id,
      or what was known before when the outline failed or has no such row. */
  function MetaAfterLoad(prev: Option<LessonOutlineItem>, outline: Option<CourseOutline>, lessonId: int): (r: Option<LessonOutlineItem>)
    ensures outline.None? ==> r == prev
    ensures outline.Some? ==>
      r == (if Outline.Find(Outline.AllLessons(outline.value.modules), lessonId).Some?
            then Outline.Find(Outline.AllLessons(outline.value.modules), lessonId)
            else prev)
  {
    match outline
    case None => prev
    case Some(o) =>
      Outline.FindLessonIsFirstInOutline(o.modules, lessonId);
      match Outline.FindLesson(o.modules, lessonId)
      case Some(l) => Some(l)
      case None => prev
  }

  /** The end of `loadLesson`. A failed fetch records the error and changes
      nothing else; a later success does not clear an earlier error. */
  function FinishLoad(env: Env, v: View, fetch: LessonFetch, outline: Option<CourseOutline>): (r: View)
    ensures !r.loading && r.completing == v.completing
    ensures fetch.FetchFailed? ==> r == v.(loading := false, error := Some(LoadFailedMessage))
    ensures fetch.Fetched? ==>
      && r.lesson == Some(fetch.detail)
      && r.error == v.error
      && r.quiz == PrepareQuiz(v.quiz, fetch.detail)
      && r.meta == MetaAfterLoad(v.meta, outline, env.lessonId)
  {
    match fetch
    case FetchFailed => v.(loading := false, error := Some(LoadFailedMessage))
    case Fetched(d) =>
      v.(lesson := Some(d),
         meta := MetaAfterLoad(v.meta, outline, env.lessonId),
         loading := false,
         quiz := PrepareQuiz(v.quiz, d))
  }

  // ---------------------------------------------------------------- answering

  /** `handleSelectAnswer(q, a)`: only entry `q` changes, to `a`. */
  function SelectAnswer(answers: seq<int>, q: int, a: int): (r: seq<int>)
    requires 0 <= q < |answers|
    ensures |r| == |answers| && r[q] == a
    ensures forall i | 0 <= i < |answers| && i != q :: r[i] == answers[i]
  {
    answers[q := a]
  }

  /** `handleSubmitQuiz` up to the request: without a quiz nothing happens; with
      an unanswered question only an alert is raised; otherwise the answer
      vector is sent as it is and the submission is marked in flight. */
  function SubmitQuiz(env: Env, v: View): (r: (View, seq<Effect>))
    ensures v.lesson.None? || v.lesson.value.questions.None? ==> r == (v, [])
    ensures SomeUnanswered(v.quiz.answers) ==> r.0 == v && !HasServerCall(r.1)
    ensures v.lesson.Some? && v.lesson.value.questions.Some? && SomeUnanswered(v.quiz.answers) ==>
      r.1 == Alert(env.tg, AnswerAllMessage)
    ensures v.lesson.Some? && v.lesson.value.questions.Some? && !SomeUnanswered(v.quiz.answers) ==>
      && r.1 == [SubmitQuizCall(env.lessonId, v.quiz.answers)]
      && r.0 == v.(quiz := v.quiz.(submitting := true))
  {
    if v.lesson.None? || v.lesson.value.questions.None? then (v, [])
    else if SomeUnanswered(v.quiz.answers) then (v, Alert(env.tg, AnswerAllMessage))
    else (v.(quiz := v.quiz.(submitting := true)), [SubmitQuizCall(env.lessonId, v.quiz.answers)])
  }

  /** The answer to a submission: a result replaces the page; a failure only
      ends the in-flight state, keeping the answers for another try. */
  function FinishSubmit(v: View, outcome: Option<QuizResult>): (r: View)
    ensures !r.quiz.submitting && r.quiz.answers == v.quiz.answers
    ensures r.quiz.result == (if outcome.Some? then outcome else v.quiz.result)
    ensures r.(quiz := v.quiz) == v
    ensures r.quiz.(submitting := v.quiz.submitting, result := v.quiz.result) == v.quiz
  {
    v.(quiz := v.quiz.(submitting := false, result := if outcome.Some? then outcome else v.quiz.result))
  }

  // ---------------------------------------------------------------- retaking

  /** A successful retake call resets the quiz and starts reloading the lesson. */
  function RetakeReset(v: View): (r: View)
    ensures r.quiz.result.None? && !r.quiz.showSummary && r.quiz.current == 0
    ensures v.lesson.Some? && v.lesson.value.questions.Some? ==>
      r.quiz.answers == FreshAnswers(|v.lesson.value.questions.value|)
    ensures !(v.lesson.Some? && v.lesson.value.questions.Some?) ==> r.quiz.answers == v.quiz.answers
    ensures r.loading && r.lesson == v.lesson
    ensures r.(loading := v.loading, quiz := v.quiz) == v
    ensures r.quiz.(result := v.quiz.result, showSummary := v.quiz.showSummary,
                    current := v.quiz.current, answers := v.quiz.answers) == v.quiz
  {
    var answers :=
      if v.lesson.Some? && v.lesson.value.questions.Some? then FreshAnswers(|v.lesson.value.questions.value|)
      else v.quiz.answers;
    v.(loading := true,
       quiz := v.quiz.(result := None, showSummary := false, current := 0, answers := answers))
  }

  // ---------------------------------------------------------------- video

  datatype VideoOutcome = VideoSent | VideoFailed(responseMessage: Option<string>, errorMessage: Option<string>)

  /** The alert text for a failed video request:
      `response.data.message || message || default`. */
  function VideoErrorText(responseMessage: Option<string>, errorMessage: Option<string>): string
  {
    if TruthyText(responseMessage) then responseMessage.value
    else if TruthyText(errorMessage) then errorMessage.value
    else VideoDefaultError
  }

  /** `handleWatchVideo` up to the request: a "sending" popup inside Telegram,
      then one request for this lesson; the app stays open until it is answered. */
  function WatchVideoStart(env: Env): (r: seq<Effect>)
    ensures |r| > 0 && r[|r| - 1] == RequestVideoCall(env.lessonId)
    ensures forall k | 0 <= k < |r| - 1 :: r[k].ShowPopup?
    ensures (exists k | 0 <= k < |r| :: r[k].ShowPopup?) <==> env.tg
    ensures CloseApp !in r && !HasNavigation(r)
  {
    var r := (if env.tg then [ShowPopup("Loading", "Sending video to chat...")] else []) + [RequestVideoCall(env.lessonId)];
    assert env.tg ==> r[0].ShowPopup?;
    r
  }

  /** `handleWatchVideo` after the request: on success the app is closed so the
      learner sees the video in the chat; on failure an alert explains why and
      the app stays open. */
  function WatchVideoEnd(env: Env, outcome: VideoOutcome): (r: seq<Effect>)
    ensures (CloseApp in r) <==> env.tg && outcome.VideoSent?
    ensures outcome.VideoSent? ==> r == (if env.tg then [CloseApp] else [])
    ensures outcome.VideoSent? ==> forall k | 0 <= k < |r| :: !r[k].ShowAlert?
    ensures outcome.VideoFailed? && env.tg ==>
      r == [ShowAlert("Error: " + VideoErrorText(outcome.responseMessage, outcome.errorMessage))]
    ensures !HasNavigation(r) && !HasServerCall(r)
  {
    match outcome
    case VideoSent => if env.tg then [CloseApp] else []
    case VideoFailed(rm, em) => Alert(env.tg, "Error: " + VideoErrorText(rm, em))
  }

  /** The failure message prefers the server's message, then the error's own,
      then the default text. */
  lemma VideoErrorPreference(rm: Option<string>, em: Option<string>)
    ensures TruthyText(rm) ==> VideoErrorText(rm, em) == rm.value
    ensures !TruthyText(rm) && TruthyText(em) ==> VideoErrorText(rm, em) == em.value
    ensures !TruthyText(rm) && !TruthyText(em) ==> VideoErrorText(rm, em) == VideoDefaultError
    ensures VideoErrorText(rm, em) != ""
  {
  }

  // ---------------------------------------------------------------- rendering

  datatype RetakeChoice = RetakeButton(busy: bool) | MaxAttemptsReached | RetakeNotAllowed

  /** The summary's retake area: the button when the server allows a retake,
      otherwise the "Maximum attempts reached" text when both counts are truthy
      and used up, and "Quiz retake is not allowed" in every other case. */
  function RetakeChoiceFor(meta: LessonOutlineItem, retaking: bool): RetakeChoice
  {
    if TruthyFlag(meta.canRetake) then RetakeButton(retaking)
    else if TruthyNumber(meta.maxAttempts) && TruthyNumber(meta.attemptsUsed)
            && meta.attemptsUsed.value >= meta.maxAttempts.value then MaxAttemptsReached
    else RetakeNotAllowed
  }

  /** The quiz summary as drawn: the last score, the attempts line (when the
      used count is given) with the text drawn after the count, and the
      retake area. */
  datatype Summary = Summary(
    lastScorePercent: Option<int>,
    attemptsUsed: Option<int>,
    attemptsSuffix: string,
    retake: RetakeChoice)

  function SummaryFor(meta: LessonOutlineItem, retaking: bool): Summary
  {
    Summary(
      meta.lastScorePercent,
      meta.attemptsUsed,
      NumberGuardText(meta.maxAttempts, if meta.maxAttempts.Some? then " / " + IntToString(meta.maxAttempts.value) else ""),
      RetakeChoiceFor(meta, retaking))
  }

  /** The button after the options: "Next" before the last question, "Submit" on it. */
  datatype Forward = NextButton(enabled: bool) | SubmitButton(enabled: bool, busy: bool)

  datatype Flow = Flow(
    index: int,
    count: int,
    selected: int,
    optionCount: int,
    previous: bool,
    forward: Forward,
    answeredDots: seq<bool>)

  datatype Body =
    | TextBody(markComplete: bool)
    | FileBody(markComplete: bool)
    | VideoBody(player: bool, markComplete: bool, watchInChat: bool, completedNote: bool)
    | QuizBody(summary: Option<Summary>, flow: Option<Flow>)
    | NoBody

  datatype Screen =
    | LoadingScreen
    | ErrorScreen(message: string)
    | ResultScreen(score: int, totalScore: int, percentage: int, results: seq<QuestionResult>)
    | LessonScreen(title: string, completedBadge: bool, body: Body)
    | RenderFault

  /** `quizAnswers[i] === -1`, where a missing entry reads as `undefined`. */
  predicate IsUnansweredAt(answers: seq<int>, i: int) {
    0 <= i < |answers| && answers[i] == Unanswered
  }

  function FlowFor(q: QuizSession, questions: seq<QuizQuestion>): Flow
    requires 0 <= q.current < |questions|
  {
    var n := |questions|;
    Flow(
      q.current,
      n,
      if q.current < |q.answers| then q.answers[q.current] else Unanswered,
      |questions[q.current].options|,
      q.current > 0,
      if q.current < n - 1 then NextButton(!IsUnansweredAt(q.answers, q.current))
      else SubmitButton(!(q.submitting || SomeUnanswered(q.answers)), q.submitting),
      seq(n, i => !IsUnansweredAt(q.answers, i)))
  }

  /** The question card would read `questions[currentQuestion]` out of range. */
  predicate FlowFaults(v: View)
    requires v.lesson.Some?
  {
    var d := v.lesson.value;
    d.lessonType == LessonType.Quiz && d.questions.Some? && !v.quiz.showSummary
      && !(0 <= v.quiz.current < |d.questions.value|)
  }

  function BodyFor(v: View): Body
    requires v.lesson.Some? && !FlowFaults(v)
  {
    var d := v.lesson.value;
    var open := d.status != Completed;
    match d.lessonType
    case Text => TextBody(open)
    case File => FileBody(open)
    case Video =>
      var playable := TruthyText(d.videoUrl);
      VideoBody(playable, playable && open, !playable, !open && !playable)
    case Quiz =>
      if d.questions.None? then NoBody
      else
        QuizBody(
          if v.quiz.showSummary && v.meta.Some? then Some(SummaryFor(v.meta.value, v.quiz.retaking)) else None,
          if !v.quiz.showSummary then Some(FlowFor(v.quiz, d.questions.value)) else None)
    case OtherType(_) => NoBody
  }

  /** What the page draws, in the order the component checks it. */
  function Render(v: View): Screen
  {
    if v.loading then LoadingScreen
    else if TruthyText(v.error) || v.lesson.None? then
      ErrorScreen(if TruthyText(v.error) then v.error.value else NotFoundMessage)
    else if v.quiz.result.Some? then
      var res := v.quiz.result.value;
      ResultScreen(res.score, res.totalScore, res.percentage, res.results)
    else if FlowFaults(v) then RenderFault
    else LessonScreen(v.lesson.value.title, v.lesson.value.status == Completed, BodyFor(v))
  }

  /** The question flow on screen, if any. */
  function ShownFlow(v: View): Option<Flow> {
    var s := Render(v);
    if s.LessonScreen? && s.body.QuizBody? then s.body.flow else None
  }

  /** The quiz summary on screen, if any. */
  function ShownSummary(v: View): Option<Summary> {
    var s := Render(v);
    if s.LessonScreen? && s.body.QuizBody? then s.body.summary else None
  }

  /** Whether "Mark as Completed" is on screen. */
  predicate ShowsMarkComplete(v: View) {
    var s := Render(v);
    s.LessonScreen? &&
      match s.body
      case TextBody(m) => m
      case FileBody(m) => m
      case VideoBody(_, m, _, _) => m
      case _ => false
  }

  /** Whether "Watch in Chat" is on screen. */
  predicate ShowsWatchInChat(v: View) {
    var s := Render(v);
    s.LessonScreen? && s.body.VideoBody? && s.body.watchInChat
  }

  // ---------------------------------------------------------------- events

  datatype Event =
    | LoadDone(fetch: LessonFetch, outline: Option<CourseOutline>)
    | ChooseOption(option: int)
    | PressPrevious
    | PressNext
    | PressDot(index: int)
    | PressSubmit
    | SubmitDone(outcome: Option<QuizResult>)
    | PressRetake
    | RetakeDone(ok: bool)
    | PressComplete
    | CompleteDone(ok: bool)
    | PressWatch
    | VideoDone(video: VideoOutcome)
    | PressBackToSyllabus
    | PressTelegramBack

  /** One event. A click on something that is not on screen (or is disabled)
      changes nothing, and so does the answer to a load, submission, retake or
      completion that nobody is waiting for. The answer to a video request is
      not guarded: the page awaits it inside the click handler and keeps no
      flag for it, so `VideoDone` is handled whenever it arrives. */
  function Step(env: Env, v: View, e: Event): (View, seq<Effect>)
  {
    var flow := ShownFlow(v);
    var summary := ShownSummary(v);
    var q := v.quiz;
    match e
    case LoadDone(fetch, outline) =>
      if !v.loading then (v, [])
      else
        var w := FinishLoad(env, v, fetch, outline);
        (w.(quiz := w.quiz.(retaking := false)), [])
    case ChooseOption(option) =>
      if flow.Some? && 0 <= option < flow.value.optionCount && 0 <= q.current < |q.answers| then
        (v.(quiz := q.(answers := SelectAnswer(q.answers, q.current, option))), [])
      else (v, [])
    case PressPrevious =>
      if flow.Some? && flow.value.previous then (v.(quiz := q.(current := q.current - 1)), [])
      else (v, [])
    case PressNext =>
      if flow.Some? && flow.value.forward == NextButton(true) then (v.(quiz := q.(current := q.current + 1)), [])
      else (v, [])
    case PressDot(i) =>
      if flow.Some? && 0 <= i < flow.value.count then (v.(quiz := q.(current := i)), [])
      else (v, [])
    case PressSubmit =>
      if flow.Some? && flow.value.forward.SubmitButton? && flow.value.forward.enabled then SubmitQuiz(env, v)
      else (v, [])
    case SubmitDone(outcome) =>
      if q.submitting then (FinishSubmit(v, outcome), []) else (v, [])
    case PressRetake =>
      if summary.Some? && summary.value.retake == RetakeButton(false) then
        (v.(quiz := q.(retaking := true)), [RetakeQuizCall(env.lessonId)])
      else (v, [])
    case RetakeDone(ok) =>
      if !q.retaking || v.loading then (v, [])
      else if ok then (RetakeReset(v), [])
      else (v.(quiz := q.(retaking := false)), Alert(env.tg, RetakeFailedMessage))
    case PressComplete =>
      if ShowsMarkComplete(v) && !v.completing then
        (v.(completing := true), [CompleteLessonCall(env.lessonId)])
      else (v, [])
    case CompleteDone(ok) =>
      if !v.completing then (v, [])
      else if ok then (v.(completing := false), Alert(env.tg, CompletedMessage) + [NavigateTo(CoursePath(env.courseId))])
      else (v.(completing := false), [])
    case PressWatch =>
      if ShowsWatchInChat(v) then (v, WatchVideoStart(env)) else (v, [])
    case VideoDone(video) =>
      (v, WatchVideoEnd(env, video))
    case PressBackToSyllabus =>
      if Render(v).ResultScreen? || summary.Some? then (v, [NavigateTo(SyllabusPath(env.courseId))])
      else (v, [])
    case PressTelegramBack =>
      (v, if env.tg then [NavigateTo(CoursePath(env.courseId))] else [])
  }

  /** The view after a sequence of events, in order. */
  function Run(env: Env, v: View, es: seq<Event>): View
    decreases |es|
  {
    if es == [] then v else Run(env, Step(env, v, es[0]).0, es[1..])
  }

  // ---------------------------------------------------------------- invariant

  /** What holds of every reachable view: a load only ever starts at the first
      question, and a quiz lesson without its summary has one answer slot per
      question and a question index that is the first or within range. */
  predicate Inv(v: View) {
    && 0 <= v.quiz.current
    && (v.loading ==> v.quiz.current == 0)
    && (v.lesson.Some? && v.lesson.value.questions.Some? && !v.quiz.showSummary ==>
          && |v.quiz.answers| == |v.lesson.value.questions.value|
          && (v.quiz.current == 0 || v.quiz.current < |v.lesson.value.questions.value|))
  }

  lemma InitialInv()
    ensures Inv(Initial)
  {
  }

  /** A shown question flow has its index within range and one answer per question. */
  lemma ShownFlowInRange(v: View)
    requires Inv(v)
    requires ShownFlow(v).Some?
    ensures var n := |v.lesson.value.questions.value|;
      0 <= v.quiz.current < n && |v.quiz.answers| == n && ShownFlow(v).value.count == n
  {
  }

  /** The page never fails on the question card, except for a quiz with no questions. */
  lemma NoFaultExceptEmptyQuiz(v: View)
    requires Inv(v)
    requires Render(v) == RenderFault
    ensures v.lesson.Some? && v.lesson.value.questions == Some([])
  {
  }

  lemma NavigationPreservesInv(env: Env, v: View, e: Event)
    requires Inv(v)
    requires e.PressPrevious? || e.PressNext? || e.PressDot? || e.ChooseOption?
    ensures Inv(Step(env, v, e).0)
  {
    if ShownFlow(v).Some? {
      ShownFlowInRange(v);
    }
  }

  lemma StepPreservesInv(env: Env, v: View, e: Event)
    requires Inv(v)
    ensures Inv(Step(env, v, e).0)
  {
    match e
    case PressPrevious => NavigationPreservesInv(env, v, e);
    case PressNext => NavigationPreservesInv(env, v, e);
    case PressDot(_) => NavigationPreservesInv(env, v, e);
    case ChooseOption(_) => NavigationPreservesInv(env, v, e);
    case _ =>
  }

  /** Every view reached from the initial one by any events satisfies `Inv`. */
  lemma {:induction false} RunPreservesInv(env: Env, v: View, es: seq<Event>)
    requires Inv(v)
    ensures Inv(Run(env, v, es))
    decreases |es|
  {
    if es != [] {
      StepPreservesInv(env, v, es[0]);
      RunPreservesInv(env, Step(env, v, es[0]).0, es[1..]);
    }
  }

  /** Hence on any reachable page the shown question index is in [0, n-1]. */
  lemma ReachableFlowInRange(env: Env, es: seq<Event>)
    ensures var v := Run(env, Initial, es);
      ShownFlow(v).Some? ==> 0 <= v.quiz.current < |v.lesson.value.questions.value|
  {
    InitialInv();
    RunPreservesInv(env, Initial, es);
    var v := Run(env, Initial, es);
    if ShownFlow(v).Some? {
      ShownFlowInRange(v);
    }
  }

  // ---------------------------------------------------------------- properties

  /** Loading an uncompleted quiz gives a fresh answer vector sized to the
      questions and hides the summary; loading a completed one shows the
      summary and keeps the answers. */
  lemma LoadInitialisesQuiz(env: Env, v: View, d: LessonDetail, outline: Option<CourseOutline>)
    requires v.loading && d.questions.Some?
    ensures var w := Step(env, v, LoadDone(Fetched(d), outline)).0;
      && !w.loading
      && (d.status != Completed ==> w.quiz.answers == FreshAnswers(|d.questions.value|) && !w.quiz.showSummary)
      && (d.status == Completed ==> w.quiz.showSummary && w.quiz.answers == v.quiz.answers)
  {
  }

  /** "Previous" is offered only past the first question; "Next" only before the
      last one and only once the current question is answered; "Submit" only on
      the last one, and only with every question answered and nothing in flight. */
  lemma FlowButtons(v: View)
    requires Inv(v) && ShownFlow(v).Some?
    ensures var f := ShownFlow(v).value; var q := v.quiz; var n := f.count;
      && (f.previous <==> q.current > 0)
      && (f.forward.NextButton? <==> q.current < n - 1)
      && (f.forward.NextButton? ==> (f.forward.enabled <==> q.answers[q.current] != Unanswered))
      && (f.forward.SubmitButton? ==> (f.forward.enabled <==> !q.submitting && forall i | 0 <= i < n :: q.answers[i] != Unanswered))
      && f.selected == q.answers[q.current]
      && |f.answeredDots| == n
      && (forall i | 0 <= i < n :: f.answeredDots[i] <==> q.answers[i] != Unanswered)
  {
    ShownFlowInRange(v);
  }

  /** The buttons move the index by one, and a dot jumps to any question
      whatever has been answered; in every case the index stays in range. */
  lemma NavigationMoves(env: Env, v: View, e: Event)
    requires Inv(v) && ShownFlow(v).Some?
    requires e.PressPrevious? || e.PressNext? || e.PressDot?
    ensures var w := Step(env, v, e).0; var n := |v.lesson.value.questions.value|;
      && 0 <= w.quiz.current < n
      && w.quiz.answers == v.quiz.answers
      && (e.PressNext? && w != v ==> w.quiz.current == v.quiz.current + 1 && v.quiz.answers[v.quiz.current] != Unanswered)
      && (e.PressPrevious? && w != v ==> w.quiz.current == v.quiz.current - 1)
      && (e.PressDot? && 0 <= e.index < n ==> w.quiz.current == e.index)
  {
    ShownFlowInRange(v);
  }

  /** Choosing an option records it for the shown question only. */
  lemma ChoosingRecordsOnlyCurrent(env: Env, v: View, option: int)
    requires Inv(v) && ShownFlow(v).Some?
    requires 0 <= option < ShownFlow(v).value.optionCount
    ensures var w := Step(env, v, ChooseOption(option)).0;
      && |w.quiz.answers| == |v.quiz.answers|
      && w.quiz.answers[v.quiz.current] == option
      && (forall i | 0 <= i < |v.quiz.answers| && i != v.quiz.current :: w.quiz.answers[i] == v.quiz.answers[i])
      && w.quiz.current == v.quiz.current
  {
    ShownFlowInRange(v);
  }

  /** Submitting through the page sends exactly the current answers, all of
      them answered, and marks the submission in flight. */
  lemma SubmitSendsAnswers(env: Env, v: View)
    requires Inv(v)
    requires Step(env, v, PressSubmit).1 != []
    ensures forall i | 0 <= i < |v.quiz.answers| :: v.quiz.answers[i] != Unanswered
    ensures Step(env, v, PressSubmit).1 == [SubmitQuizCall(env.lessonId, v.quiz.answers)]
    ensures Step(env, v, PressSubmit).0.quiz.submitting
  {
  }

  /** A successful retake clears the result, hides the summary, goes back to the
      first question with a fresh answer vector, and reloads; after the reload
      the server's status decides again whether the summary is shown. */
  lemma RetakeThenReload(env: Env, v: View, d: LessonDetail, outline: Option<CourseOutline>)
    requires v.quiz.retaking && !v.loading
    requires v.lesson.Some? && v.lesson.value.questions.Some?
    requires d.questions.Some?
    ensures var w := Step(env, v, RetakeDone(true)).0;
      && w.quiz.result.None? && !w.quiz.showSummary && w.quiz.current == 0
      && w.quiz.answers == FreshAnswers(|v.lesson.value.questions.value|)
      && w.loading
    ensures var w := Step(env, Step(env, v, RetakeDone(true)).0, LoadDone(Fetched(d), outline)).0;
      && !w.loading && !w.quiz.retaking && w.quiz.result.None? && w.quiz.current == 0
      && (w.quiz.showSummary <==> d.status == Completed)
      && (d.status != Completed ==> w.quiz.answers == FreshAnswers(|d.questions.value|))
  {
  }

  /** A result on hand takes priority over every other way of drawing the lesson. */
  lemma ResultTakesPriority(v: View)
    requires !v.loading && !TruthyText(v.error) && v.lesson.Some? && v.quiz.result.Some?
    ensures Render(v).ResultScreen?
    ensures Render(v).score == v.quiz.result.value.score && Render(v).percentage == v.quiz.result.value.percentage
  {
  }

  /** "Mark as Completed" appears only on an uncompleted text or file lesson, or an
      uncompleted video lesson with a playable URL; a video lesson without one
      offers "Watch in Chat" instead, whatever its status. */
  lemma CompletionActions(v: View)
    requires Render(v).LessonScreen?
    ensures var d := v.lesson.value;
      ShowsMarkComplete(v) <==>
        d.status != Completed &&
        (d.lessonType == Text || d.lessonType == File || (d.lessonType == Video && TruthyText(d.videoUrl)))
    ensures var d := v.lesson.value;
      ShowsWatchInChat(v) <==> d.lessonType == Video && !TruthyText(d.videoUrl)
    ensures !(ShowsMarkComplete(v) && ShowsWatchInChat(v))
  {
  }

  /** "Maximum attempts reached" is the text exactly when a retake is not allowed
      and both counts are truthy with the limit used up. */
  lemma RetakeMessage(meta: LessonOutlineItem, retaking: bool)
    ensures RetakeChoiceFor(meta, retaking).RetakeButton? <==> TruthyFlag(meta.canRetake)
    ensures RetakeChoiceFor(meta, retaking) == MaxAttemptsReached <==>
      && !TruthyFlag(meta.canRetake)
      && meta.maxAttempts.Some? && meta.maxAttempts.value != 0
      && meta.attemptsUsed.Some? && meta.attemptsUsed.value != 0
      && meta.attemptsUsed.value >= meta.maxAttempts.value
    ensures RetakeChoiceFor(meta, retaking) == RetakeNotAllowed <==>
      !TruthyFlag(meta.canRetake) && RetakeChoiceFor(meta, retaking) != MaxAttemptsReached
  {
  }

  /** With the retake rule the server documents (allowed by the course and
      either no limit or attempts left), a positive limit that has been used up
      always reads "Maximum attempts reached", and attempts left with retakes
      disabled read "Quiz retake is not allowed". */
  lemma RetakeMessageUnderServerRule(meta: LessonOutlineItem, allowRetake: bool)
    requires meta.attemptsUsed.Some? && meta.attemptsUsed.value >= 0
    requires meta.canRetake == Some(allowRetake && (meta.maxAttempts.None? || meta.attemptsUsed.value < meta.maxAttempts.value))
    ensures meta.maxAttempts.Some? && 0 < meta.maxAttempts.value <= meta.attemptsUsed.value ==>
      RetakeChoiceFor(meta, false) == MaxAttemptsReached
    ensures !allowRetake && (meta.maxAttempts.None? || meta.attemptsUsed.value < meta.maxAttempts.value) ==>
      RetakeChoiceFor(meta, false) == RetakeNotAllowed
  {
  }

  /** Two attempts used of two, no retake: the summary says the maximum is reached. */
  lemma MaxAttemptsExample(meta: LessonOutlineItem)
    requires meta.maxAttempts == Some(2) && meta.attemptsUsed == Some(2) && meta.canRetake == Some(false)
    ensures RetakeChoiceFor(meta, false) == MaxAttemptsReached
  {
  }

  /** Three unanswered questions keep "Submit" disabled; answers [1, 0, 2] enable it. */
  lemma SubmitEnabledExample(qs: seq<QuizQuestion>)
    requires |qs| == 3
    ensures FlowFor(QuizSession([-1, -1, -1], 2, None, false, false, false), qs).forward == SubmitButton(false, false)
    ensures FlowFor(QuizSession([1, 0, 2], 2, None, false, false, false), qs).forward == SubmitButton(true, false)
  {
    assert [-1, -1, -1][0] == Unanswered;
  }

  /** The result screen leads back to the syllabus; the question flow offers no
      such button, so the event does nothing there. */
  lemma BackNavigation(env: Env, v: View)
    ensures Render(v).ResultScreen? ==>
      Step(env, v, PressBackToSyllabus) == (v, [NavigateTo(SyllabusPath(env.courseId))])
    ensures Render(v).LessonScreen? && Render(v).body.QuizBody? && Render(v).body.flow.Some? ==>
      Step(env, v, PressBackToSyllabus) == (v, [])
  {
  }

  /** While the lesson page is shown inside Telegram, its back button leads to
      the course page and changes nothing else. */
  lemma TelegramBackNavigation(env: Env, v: View)
    ensures env.tg ==> Step(env, v, PressTelegramBack) == (v, [NavigateTo(CoursePath(env.courseId))])
  {
  }

  /** "Mark as Completed" sends one completion request, and is ignored while one
      is in flight; on success the learner is told and taken to the course page,
      on failure nothing is shown; either way the button is usable again. */
  lemma CompleteFlow(env: Env, v: View)
    ensures ShowsMarkComplete(v) && !v.completing ==>
      Step(env, v, PressComplete) == (v.(completing := true), [CompleteLessonCall(env.lessonId)])
    ensures v.completing ==> Step(env, v, PressComplete) == (v, [])
    ensures v.completing ==>
      var (w, es) := Step(env, v, CompleteDone(true));
      && !w.completing
      && es[|es| - 1] == NavigateTo(CoursePath(env.courseId))
      && (env.tg ==> es[0] == ShowAlert(CompletedMessage))
    ensures v.completing ==> Step(env, v, CompleteDone(false)) == (v.(completing := false), [])
  {
  }

  /** The summary of a completed quiz: the last score exactly when the server
      gives one, the attempts line exactly when the used count is given, with
      " / limit" after the count for a truthy limit, a bare "0" for a zero
      limit, and nothing when there is no limit. */
  lemma SummaryLines(v: View)
    requires ShownSummary(v).Some?
    ensures v.quiz.showSummary && v.meta.Some?
    ensures var s := ShownSummary(v).value; var m := v.meta.value;
      && s.lastScorePercent == m.lastScorePercent
      && s.attemptsUsed == m.attemptsUsed
      && (s.attemptsSuffix == "" <==> m.maxAttempts.None?)
      && (s.attemptsSuffix == "0" <==> m.maxAttempts == Some(0))
      && (TruthyNumber(m.maxAttempts) ==> s.attemptsSuffix == " / " + IntToString(m.maxAttempts.value))
      && s.retake == RetakeChoiceFor(m, v.quiz.retaking)
  {
  }

  /** Three attempts used against a limit of 0: the line reads "Attempts used: 3"
      with a stray "0" after it, and no retake is offered. */
  lemma ZeroLimitExample(meta: LessonOutlineItem)
    requires meta.maxAttempts == Some(0) && meta.attemptsUsed == Some(3) && meta.canRetake == Some(false)
    ensures SummaryFor(meta, false).attemptsSuffix == "0"
    ensures SummaryFor(meta, false).retake == RetakeNotAllowed
  {
  }

  /** A completed quiz whose outline row could not be found shows neither the
      summary nor the questions. */
  lemma CompletedQuizWithoutMeta(v: View)
    requires Render(v).LessonScreen? && Render(v).body.QuizBody?
    requires v.quiz.showSummary && v.meta.None?
    ensures ShownSummary(v).None? && ShownFlow(v).None?
  {
  }

  /** Requesting a video closes the app only when the request succeeded. */
  lemma VideoClosesOnlyOnSuccess(env: Env, outcome: VideoOutcome)
    requires env.tg
    ensures CloseApp in WatchVideoEnd(env, outcome) <==> outcome.VideoSent?
    ensures outcome.VideoFailed? ==> |WatchVideoEnd(env, outcome)| == 1 && WatchVideoEnd(env, outcome)[0].ShowAlert?
  {
  }
}

=== FILE: media_proxy.dfy ===
/**
 * Media-proxy URLs (src/utils/mediaProxy.ts): media are referred to by an
 * opaque id and fetched through `{base}/media-proxy/public/{id}`, and the id
 * can be read back out of such a URL with a regular expression.
 */
module MediaProxy {
  import opened Api
  import opened Decimal

  /** A media id as the components pass it: `number | string`. */
  datatype MediaId = NumberId(n: int) | StringId(s: string)

  /** JavaScript truthiness of a media id: `0` and `''` are falsy. */
  predicate Truthy(id: MediaId) {
    match id
    case NumberId(n) => n != 0
    case StringId(s) => s != ""
  }

  /** The id as a template literal renders it. */
  function IdText(id: MediaId): string {
    match id
    case NumberId(n) => IntToString(n)
    case StringId(s) => s
  }

  const DefaultApiBase: string := "http://localhost:3000"

  /** `VITE_API_URL || 'http://localhost:3000'`: the build-time setting when it is non-empty. */
  function ApiBase(configured: Option<string>): string {
    if TruthyText(configured) then configured.value else DefaultApiBase
  }

  const Segment: string := "/media-proxy/"
  const PublicDir: string := "public/"

  /** `pat` appears in `s` starting at position `i`. */
  predicate OccursAt(s: string, pat: string, i: int) {
    0 <= i && i + |pat| <= |s| && s[i..i + |pat|] == pat
  }

  /** `s.includes(pat)`, computed by trying each start position in turn. */
  function Includes(s: string, pat: string): (r: bool)
    ensures r <==> exists i | 0 <= i <= |s| :: OccursAt(s, pat, i)
    decreases |s|
  {
    if |s| < |pat| then false
    else if s[..|pat|] == pat then (assert OccursAt(s, pat, 0); true)
    else
      var r := Includes(s[1..], pat);
      assert r ==> exists i | 0 <= i <= |s| :: OccursAt(s, pat, i) by {
        if r {
          var i :| 0 <= i <= |s[1..]| && OccursAt(s[1..], pat, i);
          assert s[i + 1..i + 1 + |pat|] == s[1..][i..i + |pat|];
          assert OccursAt(s, pat, i + 1);
        }
      }
      assert (exists i | 0 <= i <= |s| :: OccursAt(s, pat, i)) ==> r by {
        if exists i | 0 <= i <= |s| :: OccursAt(s, pat, i) {
          var i :| 0 <= i <= |s| && OccursAt(s, pat, i);
          assert i != 0;
          assert s[1..][i - 1..i - 1 + |pat|] == s[i..i + |pat|];
          assert OccursAt(s[1..], pat, i - 1);
        }
      }
      r
  }

  /** `getMediaProxyUrl(mediaId)`: empty for a falsy id. */
  function MediaProxyUrl(base: string, id: MediaId): (u: string)
    ensures u == "" <==> !Truthy(id)
    ensures Truthy(id) ==> u == base + Segment + PublicDir + IdText(id)
  {
    if !Truthy(id) then "" else base + Segment + PublicDir + IdText(id)
  }

  datatype ImageSize = Thumbnail | Medium | Full

  /** `getImageProxyUrl(mediaId, size)`: the size argument is accepted and ignored. */
  function ImageProxyUrl(base: string, id: MediaId, size: Option<ImageSize>): (u: string)
    ensures u == MediaProxyUrl(base, id)
  {
    MediaProxyUrl(base, id)
  }

  /** `isProxyUrl(url)`. */
  predicate IsProxyUrl(u: string) {
    Includes(u, Segment)
  }

  /** The longest prefix of `s` made of ASCII digits (what a greedy `\d+` consumes). */
  function DigitRun(s: string): (r: string)
    ensures AllDigits(r) && r <= s
    ensures |r| < |s| ==> !IsDigit(s[|r|])
    decreases |s|
  {
    if s != [] && IsDigit(s[0]) then [s[0]] + DigitRun(s[1..]) else []
  }

  /** Where the capture begins for a match attempt at `i`: after `public/`
      when a digit follows it there, otherwise right after `/media-proxy/`. */
  function CaptureStart(u: string, i: nat): nat {
    var p := i + |Segment + PublicDir|;
    if OccursAt(u, Segment + PublicDir, i) && p < |u| && IsDigit(u[p]) then p else i + |Segment|
  }

  /** `r` is the whole run of digits of `u` that starts at position `p`. */
  predicate MaximalDigitsAt(u: string, p: nat, r: string) {
    p + |r| <= |u| && u[p..p + |r|] == r && AllDigits(r) && (p + |r| == |u| || !IsDigit(u[p + |r|]))
  }

  /** A digit after `/media-proxy/public/` is seen by the attempt with the optional group. */
  lemma PublicDigitsAreTriedFirst(u: string, i: nat)
    ensures var k := i + |Segment|; var p := k + |PublicDir|;
      OccursAt(u, Segment + PublicDir, i) && p < |u| && IsDigit(u[p]) ==>
        PublicDir <= u[k..] && DigitRun(u[k..][|PublicDir|..]) != []
  {
    var k := i + |Segment|;
    var p := k + |PublicDir|;
    if OccursAt(u, Segment + PublicDir, i) && p < |u| && IsDigit(u[p]) {
      var rest := u[k..];
      assert rest[..|PublicDir|] == u[i..p][|Segment|..] == PublicDir;
      assert rest[|PublicDir|..][0] == u[p];
    }
  }

  /** The digit run starting at `p` is the whole run of digits there; it is
      empty exactly when no digit stands at `p`. */
  lemma DigitRunAt(u: string, p: nat)
    requires p <= |u|
    ensures MaximalDigitsAt(u, p, DigitRun(u[p..]))
    ensures DigitRun(u[p..]) == [] <==> p == |u| || !IsDigit(u[p])
  {
    var r := DigitRun(u[p..]);
    assert u[p..p + |r|] == u[p..][..|r|];
    if p + |r| < |u| {
      assert u[p..][|r|] == u[p + |r|];
    }
    if p < |u| {
      assert u[p..][0] == u[p];
    }
  }

  /** The attempt at `i` takes `public/` when a digit follows it and otherwise
      reads its digits right after `/media-proxy/`: either way, the run at
      `CaptureStart(u, i)`. */
  lemma CaptureIsRunAtStart(u: string, i: nat)
    requires OccursAt(u, Segment, i)
    ensures CaptureStart(u, i) <= |u|
    ensures var rest := u[i + |Segment|..];
      (if PublicDir <= rest && DigitRun(rest[|PublicDir|..]) != [] then DigitRun(rest[|PublicDir|..]) else DigitRun(rest))
        == DigitRun(u[CaptureStart(u, i)..])
  {
    var k := i + |Segment|;
    var p := k + |PublicDir|;
    var rest := u[k..];
    if PublicDir <= rest && DigitRun(rest[|PublicDir|..]) != [] {
      assert rest[|PublicDir|..] == u[p..];
      assert u[i..p] == Segment + PublicDir by {
        assert u[i..k] == Segment;
        assert u[k..p] == rest[..|PublicDir|] == PublicDir;
      }
      DigitRunAt(u, p);
    } else {
      PublicDigitsAreTriedFirst(u, i);
    }
  }

  /** The captured digits of `/\/media-proxy\/(?:public\/)?(\d+)/` for a match
      attempt starting at position `i`: the optional group is tried first, and
      skipped on backtracking when no digit follows it. */
  function MatchAt(u: string, i: nat): (r: Option<string>)
    ensures r.Some? ==> OccursAt(u, Segment, i) && |r.value| > 0
    ensures r.Some? ==> MaximalDigitsAt(u, CaptureStart(u, i), r.value)
    ensures r.None? ==> !OccursAt(u, Segment, i) || CaptureStart(u, i) == |u| || !IsDigit(u[CaptureStart(u, i)])
  {
    if !OccursAt(u, Segment, i) then None
    else
      var rest := u[i + |Segment|..];
      var digits :=
        if PublicDir <= rest && DigitRun(rest[|PublicDir|..]) != [] then DigitRun(rest[|PublicDir|..])
        else DigitRun(rest);
      CaptureIsRunAtStart(u, i);
      DigitRunAt(u, CaptureStart(u, i));
      if digits != [] then Some(digits) else None
  }

  /** Leftmost start position, at or after `from`, where the pattern matches. */
  function FirstMatch(u: string, from: nat): (r: Option<nat>)
    ensures r.Some? ==> from <= r.value <= |u| && MatchAt(u, r.value).Some?
    ensures r.Some? ==> forall j | from <= j < r.value :: MatchAt(u, j).None?
    ensures r.None? ==> forall j | from <= j <= |u| :: MatchAt(u, j).None?
    decreases |u| + 1 - from
  {
    if from > |u| then None
    else if MatchAt(u, from).Some? then Some(from)
    else
      var r := FirstMatch(u, from + 1);
      MissesFrom(u, from, if r.Some? then r.value else |u| + 1);
      r
  }

  /** A miss at `from` extends a run of misses starting just after it. */
  lemma MissesFrom(u: string, from: nat, to: nat)
    requires MatchAt(u, from).None?
    ensures (forall j | from + 1 <= j < to :: MatchAt(u, j).None?) ==>
            forall j | from <= j < to :: MatchAt(u, j).None?
  {
  }

  /** `extractMediaIdFromUrl(url)`: the leftmost match's digits, read in base ten. */
  function ExtractMediaId(u: string): (r: Option<nat>)
    ensures r.Some? ==> IsProxyUrl(u)
    ensures r.None? <==> forall i | 0 <= i <= |u| :: MatchAt(u, i).None?
    ensures r.Some? ==> exists i | 0 <= i <= |u| ::
      && MatchAt(u, i).Some?
      && r.value == ParseDigits(MatchAt(u, i).value)
      && forall j | 0 <= j < i :: MatchAt(u, j).None?
  {
    match FirstMatch(u, 0)
    case None => None
    case Some(i) => Some(ParseDigits(MatchAt(u, i).value))
  }

  /** A URL built by `getMediaProxyUrl` for a truthy id is recognised as a proxy URL. */
  lemma ProxyUrlIsRecognised(base: string, id: MediaId)
    requires Truthy(id)
    ensures IsProxyUrl(MediaProxyUrl(base, id))
  {
    var u := MediaProxyUrl(base, id);
    assert OccursAt(u, Segment, |base|) by {
      assert u[|base|..|base| + |Segment|] == Segment;
    }
  }

  /** No match starts at `i` when the character `d` places on is not the one
      `/media-proxy/` has there. */
  lemma NoSegmentAt(u: string, i: nat, d: nat)
    requires d < |Segment| && i + d < |u| && u[i + d] != Segment[d]
    ensures MatchAt(u, i).None?
  {
    if i + |Segment| <= |u| {
      assert u[i..i + |Segment|][d] == u[i + d];
    }
  }

  /** No match starts at `i` when `/media-proxy/` there is followed by a
      character that neither is a digit nor begins `public/`. */
  lemma NoDigitsAfterSegment(u: string, i: nat)
    requires i + |Segment| < |u| && !IsDigit(u[i + |Segment|]) && u[i + |Segment|] != 'p'
    ensures MatchAt(u, i).None?
  {
    var k := i + |Segment|;
    if i + |Segment + PublicDir| <= |u| {
      assert u[i..i + |Segment + PublicDir|][|Segment|] == u[k] != (Segment + PublicDir)[|Segment|];
    }
    assert CaptureStart(u, i) == k;
  }

  /** No match can start inside a base URL that does not itself contain
      `/media-proxy/`, even one that straddles the base and the appended path. */
  lemma NoMatchInCleanBase(base: string, tail: string, j: nat)
    requires !IsProxyUrl(base)
    requires j < |base|
    ensures MatchAt(base + Segment + PublicDir + tail, j).None?
  {
    var u := base + Segment + PublicDir + tail;
    var n := |base|;
    if j + |Segment| <= n {
      assert !OccursAt(base, Segment, j);
      assert u[j..j + |Segment|] == base[j..j + |Segment|] by {
        assert u[..n] == base;
        assert u[..n][j..j + |Segment|] == u[j..j + |Segment|];
      }
    } else if j != n - 12 {
      // the segment's own '/' at the end of the base lands inside the attempt
      assert u[n] == '/';
      NoSegmentAt(u, j, n - j);
    } else {
      assert u[j + |Segment|] == 'm';
      NoDigitsAfterSegment(u, j);
    }
  }

  /** A digit string is its own longest digit prefix. */
  lemma DigitRunOfDigits(s: string)
    requires AllDigits(s)
    ensures DigitRun(s) == s
  {
  }

  /** The pattern matches where the appended path starts, capturing the digits after it. */
  lemma MatchAtAppendedPath(base: string, tail: string)
    requires |tail| > 0 && AllDigits(tail)
    ensures MatchAt(base + Segment + PublicDir + tail, |base|) == Some(tail)
  {
    var u := base + Segment + PublicDir + tail;
    var p := |base|;
    assert u[p..p + |Segment|] == Segment;
    var rest := u[p + |Segment|..];
    assert rest == PublicDir + tail;
    assert rest[|PublicDir|..] == tail;
    DigitRunOfDigits(tail);
  }

  /** The leftmost match is at `p` when nothing matches before it and something matches at it. */
  lemma LeftmostMatchAt(u: string, p: nat)
    requires p <= |u| && MatchAt(u, p).Some?
    requires forall j | 0 <= j < p :: MatchAt(u, j).None?
    ensures ExtractMediaId(u) == Some(ParseDigits(MatchAt(u, p).value))
  {
    assert FirstMatch(u, 0) == Some(p);
  }

  /** Behind a clean base, the id read back is the value of the appended digits. */
  lemma ExtractAfterCleanBase(base: string, tail: string)
    requires !IsProxyUrl(base)
    requires |tail| > 0 && AllDigits(tail)
    ensures ExtractMediaId(base + Segment + PublicDir + tail) == Some(ParseDigits(tail))
  {
    var u := base + Segment + PublicDir + tail;
    forall j | 0 <= j < |base|
      ensures MatchAt(u, j).None?
    {
      NoMatchInCleanBase(base, tail, j);
    }
    MatchAtAppendedPath(base, tail);
    LeftmostMatchAt(u, |base|);
  }

  /** Round trip: the id extracted from the proxy URL of a positive numeric id is
      that id, whenever the base URL does not itself contain `/media-proxy/`. */
  lemma ExtractRoundTrip(base: string, n: nat)
    requires n > 0
    requires !IsProxyUrl(base)
    ensures ExtractMediaId(MediaProxyUrl(base, NumberId(n))) == Some(n)
  {
    ExtractAfterCleanBase(base, NatToString(n));
    ParseNatToString(n);
  }

  /** Rebuilding the URL from the extracted id gives back the same URL, for a
      string id written as a canonical decimal numeral. */
  lemma RebuildFromExtracted(base: string, s: string)
    requires !IsProxyUrl(base)
    requires |s| > 0 && AllDigits(s) && s[0] != '0'
    ensures ExtractMediaId(MediaProxyUrl(base, StringId(s))).Some?
    ensures MediaProxyUrl(base, NumberId(ExtractMediaId(MediaProxyUrl(base, StringId(s))).value))
         == MediaProxyUrl(base, StringId(s))
  {
    ExtractAfterCleanBase(base, s);
    NatToStringParse(s);
  }

  /** Leading zeros of the captured digits, however many, do not reach the extracted id. */
  lemma ExtractDropsLeadingZeros(base: string, k: nat, n: nat)
    requires !IsProxyUrl(base)
    ensures ExtractMediaId(base + Segment + PublicDir + Zeros(k) + NatToString(n)) == Some(n)
  {
    var digits := Zeros(k) + NatToString(n);
    ParseIgnoresLeadingZeros(k, NatToString(n));
    ParseNatToString(n);
    assert base + Segment + PublicDir + Zeros(k) + NatToString(n) == base + Segment + PublicDir + digits;
    ExtractAfterCleanBase(base, digits);
  }

  /** `\d+` stops at the first non-digit: a digit string followed by anything
      that does not start with a digit is its own run. */
  lemma {:induction false} DigitRunStopsAtNonDigit(d: string, rest: string)
    requires AllDigits(d) && (rest == [] || !IsDigit(rest[0]))
    ensures DigitRun(d + rest) == d
    decreases |d|
  {
    if d != [] {
      assert (d + rest)[0] == d[0];
      assert (d + rest)[1..] == d[1..] + rest;
      DigitRunStopsAtNonDigit(d[1..], rest);
    } else {
      assert d + rest == rest;
    }
  }

  /** The pattern matches where the appended path starts, capturing the digit
      run that begins the appended text. */
  lemma MatchAtAppendedRun(base: string, d: string, rest: string)
    requires |d| > 0 && AllDigits(d) && (rest == [] || !IsDigit(rest[0]))
    ensures MatchAt(base + Segment + PublicDir + (d + rest), |base|) == Some(d)
  {
    var tail := d + rest;
    var u := base + Segment + PublicDir + tail;
    var i := |base|;
    assert u[i..i + |Segment|] == Segment;
    var after := u[i + |Segment|..];
    assert after == PublicDir + tail;
    assert after[|PublicDir|..] == tail;
    DigitRunStopsAtNonDigit(d, rest);
  }

  /** Behind a clean base, an id whose text starts with a run of digits reads
      back as the value of that run, whatever follows it. */
  lemma ExtractLeadingDigits(base: string, d: string, rest: string)
    requires !IsProxyUrl(base)
    requires |d| > 0 && AllDigits(d) && (rest == [] || !IsDigit(rest[0]))
    ensures ExtractMediaId(base + Segment + PublicDir + (d + rest)) == Some(ParseDigits(d))
  {
    var tail := d + rest;
    var u := base + Segment + PublicDir + tail;
    forall j | 0 <= j < |base|
      ensures MatchAt(u, j).None?
    {
      NoMatchInCleanBase(base, tail, j);
    }
    MatchAtAppendedRun(base, d, rest);
    LeftmostMatchAt(u, |base|);
  }

  /** A string id that starts with digits reads back as their value: `12abc`
      gives 12, behind any base without a proxy path. */
  lemma StringIdReadsLeadingDigits(base: string)
    requires !IsProxyUrl(base)
    ensures ExtractMediaId(MediaProxyUrl(base, StringId("12abc"))) == Some(12)
  {
    assert "12abc" == "12" + "abc";
    ExtractLeadingDigits(base, "12", "abc");
    assert ParseDigits("12") == 12 by {
      assert "12"[..1] == "1";
      assert "1"[..0] == [];
    }
  }

  /** The clean-base condition of the round trip cannot be dropped: a base that
      already contains a proxy path yields that path's id instead. */
  lemma RoundTripNeedsCleanBase()
    ensures ExtractMediaId(MediaProxyUrl("/media-proxy/7", NumberId(5))) == Some(7)
  {
    var base := "/media-proxy/7";
    var u := MediaProxyUrl(base, NumberId(5));
    assert u[..|base|] == base;
    assert u[..|Segment|] == base[..|Segment|] == Segment;
    assert u[|Segment|] == base[|Segment|] == '7';
    assert u[|Segment| + 1] == Segment[0];
    SingleDigitCapture(u, 0);
    LeftmostMatchAt(u, 0);
    assert ParseDigits("7") == 7 by {
      assert "7"[..0] == [];
    }
  }

  /** An attempt whose `/media-proxy/` is followed by one digit and a '/'
      captures that digit alone. */
  lemma SingleDigitCapture(u: string, i: nat)
    requires OccursAt(u, Segment, i)
    requires i + |Segment| + 1 < |u| && IsDigit(u[i + |Segment|]) && u[i + |Segment| + 1] == '/'
    ensures MatchAt(u, i) == Some([u[i + |Segment|]])
  {
    var k := i + |Segment|;
    if i + |Segment + PublicDir| <= |u| {
      assert u[i..i + |Segment + PublicDir|][|Segment|] == u[k] != (Segment + PublicDir)[|Segment|];
    }
    assert CaptureStart(u, i) == k;
    var m := MatchAt(u, i);
    assert m.Some?;
    var r := m.value;
    // the run is a digit at k; a second digit would have to be the '/' at k + 1
    var j := if |r| >= 2 then 1 else 0;
    assert r[j] == u[k..k + |r|][j] == u[k + j];
    assert IsDigit(r[j]);
    assert |r| == 1 && r == [u[k]];
  }

  /** The default base URL is clean, so the round trip holds for the default configuration. */
  lemma DefaultBaseIsClean()
    ensures !IsProxyUrl(DefaultApiBase)
  {
    var b := DefaultApiBase;
    // the segment ends in '/', and the base has none from position 12 on
    var tail := b[12..];
    assert tail == "host:3000";
    assert '/' !in tail;
    forall i | 0 <= i <= |b|
      ensures !OccursAt(b, Segment, i)
    {
      if i + |Segment| <= |b| {
        assert b[i..i + |Segment|][12] == tail[i];
      }
    }
  }

  /** Without a configured API URL (or with an empty one) the default base is
      used, and every positive numeric id survives the round trip through it. */
  lemma UnconfiguredBaseRoundTrip(configured: Option<string>, n: nat)
    requires !TruthyText(configured)
    requires n > 0
    ensures ApiBase(configured) == DefaultApiBase
    ensures ExtractMediaId(MediaProxyUrl(ApiBase(configured), NumberId(n))) == Some(n)
  {
    DefaultBaseIsClean();
    ExtractRoundTrip(DefaultApiBase, n);
  }
}

=== FILE: outline.dfy ===
/**
 * Queries over a course outline that both the syllabus page and the lesson
 * page make: finding a lesson by id, module by module, with the first match
 * winning (`modules` loop with `lessons.find` and `break`).
 */
module Outline {
  import opened Api

  /** Every lesson of the outline, module after module, in the order received. */
  function AllLessons(ms: seq<ModuleOutlineItem>): seq<LessonOutlineItem>
  {
    if ms == [] then [] else ms[0].lessons + AllLessons(ms[1..])
  }

  /** Position of the first lesson with id `id`. */
  function IndexOf(ls: seq<LessonOutlineItem>, id: int): (r: Option<nat>)
    ensures r.Some? ==> r.value < |ls| && ls[r.value].id == id
    ensures r.Some? ==> forall j | 0 <= j < r.value :: ls[j].id != id
    ensures r.None? ==> forall j | 0 <= j < |ls| :: ls[j].id != id
    decreases |ls|
  {
    if ls == [] then None
    else if ls[0].id == id then Some(0)
    else match IndexOf(ls[1..], id)
      case None => None
      case Some(k) => Some(k + 1)
  }

  /** `lessons.find(l => l.id === id)`. */
  function Find(ls: seq<LessonOutlineItem>, id: int): Option<LessonOutlineItem>
  {
    match IndexOf(ls, id)
    case None => None
    case Some(k) => Some(ls[k])
  }

  /** The module-by-module search with `break` on the first module that has a match. */
  function FindLesson(ms: seq<ModuleOutlineItem>, id: int): Option<LessonOutlineItem>
  {
    if ms == [] then None
    else match Find(ms[0].lessons, id)
      case Some(l) => Some(l)
      case None => FindLesson(ms[1..], id)
  }

  /** Searching two lists one after the other is searching their concatenation. */
  lemma FindAppend(a: seq<LessonOutlineItem>, b: seq<LessonOutlineItem>, id: int)
    ensures Find(a + b, id) == (if Find(a, id).Some? then Find(a, id) else Find(b, id))
  {
    var ab := a + b;
    match IndexOf(a, id)
    case Some(k) =>
      assert ab[k] == a[k];
      var k' := IndexOf(ab, id).value;
      assert k' == k;
    case None =>
      match IndexOf(b, id)
      case Some(m) =>
        assert ab[|a| + m] == b[m];
        var k' := IndexOf(ab, id).value;
        assert k' == |a| + m;
      case None =>
        assert IndexOf(ab, id).None? by {
          forall j | 0 <= j < |ab| ensures ab[j].id != id {
            if j < |a| { assert ab[j] == a[j]; } else { assert ab[j] == b[j - |a|]; }
          }
        }
  }

  /** The module loop finds the first lesson with that id in the flattened outline,
      so it finds nothing exactly when no lesson has that id. */
  lemma {:induction false} FindLessonIsFirstInOutline(ms: seq<ModuleOutlineItem>, id: int)
    ensures FindLesson(ms, id) == Find(AllLessons(ms), id)
    ensures FindLesson(ms, id).None? <==> forall l | l in AllLessons(ms) :: l.id != id
    ensures FindLesson(ms, id).Some? ==> FindLesson(ms, id).value in AllLessons(ms)
    ensures FindLesson(ms, id).Some? ==> FindLesson(ms, id).value.id == id
    decreases |ms|
  {
    if ms != [] {
      FindLessonIsFirstInOutline(ms[1..], id);
      FindAppend(ms[0].lessons, AllLessons(ms[1..]), id);
    }
  }

  /** What the server promises about a lesson row: a locked lesson cannot be
      opened. The client relies on this but never checks it. */
  predicate LockedNeverOpens(ls: seq<LessonOutlineItem>) {
    forall i | 0 <= i < |ls| :: ls[i].status == Locked ==> !ls[i].canOpen
  }
}

=== FILE: progress.dfy ===
/**
 * The progress page's statistics (src/pages/Progress.tsx): integer folds
 * over the learner's enrolled courses and a zero-guarded, rounded
 * completion percentage, overall and per course.
 *
 * `Math.round((c / t) * 100)` is modelled on exact rationals: the integer
 * `r` with `r - 1/2 <= 100c/t < r + 1/2`, which is `floor(100c/t + 1/2)`.
 */
module Progress {
  import opened Api

  /** The rounded percentage `c` of `t` is, and 0 when `t` is not positive. */
  function RoundedPercent(c: int, t: int): (r: int)
    ensures t > 0 ==> (2 * r - 1) * t <= 200 * c < (2 * r + 1) * t
    ensures t <= 0 ==> r == 0
  {
    if t > 0 then
      var q := (200 * c + t) / (2 * t);
      assert q * (2 * t) <= 200 * c + t < q * (2 * t) + 2 * t;
      assert (2 * q - 1) * t == q * (2 * t) - t;
      assert (2 * q + 1) * t == q * (2 * t) + t;
      q
    else 0
  }

  /** A non-positive factor times a positive one is non-positive. */
  lemma NonPositiveTimesPositive(a: int, t: int)
    ensures a <= 0 && t > 0 ==> a * t <= 0
  {
  }

  /** Multiplying by a positive factor keeps the order. */
  lemma TimesPositiveMonotone(a: int, b: int, t: int)
    ensures a <= b && t > 0 ==> a * t <= b * t
  {
    assert b * t - a * t == (b - a) * t;
  }

  /** A share between nothing and everything rounds to a percentage in [0, 100]. */
  lemma RoundedPercentInRange(c: int, t: int)
    requires 0 <= c <= t
    ensures 0 <= RoundedPercent(c, t) <= 100
  {
    var r := RoundedPercent(c, t);
    if t > 0 {
      // a negative r would make (2r + 1)t non-positive, yet it exceeds 200c >= 0
      NonPositiveTimesPositive(2 * r + 1, t);
      assert (2 * r + 1) * t > 0;
      // r above 100 would make (2r - 1)t at least 201t, yet it is at most 200c <= 200t
      TimesPositiveMonotone(201, 2 * r - 1, t);
      assert (2 * r - 1) * t <= 200 * t;
    }
  }

  /** `filter(c => c.status === st).length`. */
  function CountStatus(cs: seq<CourseWithProgress>, st: CourseStatus): nat
    decreases |cs|
  {
    if cs == [] then 0
    else CountStatus(cs[..|cs| - 1], st) + (if cs[|cs| - 1].status == st then 1 else 0)
  }

  /** `reduce((sum, c) => sum + c.totalLessons, 0)`. */
  function SumTotal(cs: seq<CourseWithProgress>): int
    decreases |cs|
  {
    if cs == [] then 0 else SumTotal(cs[..|cs| - 1]) + cs[|cs| - 1].totalLessons
  }

  /** `reduce((sum, c) => sum + c.completedLessons, 0)`. */
  function SumCompleted(cs: seq<CourseWithProgress>): int
    decreases |cs|
  {
    if cs == [] then 0 else SumCompleted(cs[..|cs| - 1]) + cs[|cs| - 1].completedLessons
  }

  /** A course is counted as "in progress" when some but not all of its lessons are done. */
  predicate PartlyDone(c: CourseWithProgress) {
    0 < c.completedLessons < c.totalLessons
  }

  /** The `inProgressLessons` fold: it counts courses, not lessons. */
  function CountPartlyDone(cs: seq<CourseWithProgress>): nat
    decreases |cs|
  {
    if cs == [] then 0
    else CountPartlyDone(cs[..|cs| - 1]) + (if PartlyDone(cs[|cs| - 1]) then 1 else 0)
  }

  /** Every course reports between zero and all of its lessons completed. */
  predicate CountsConsistent(cs: seq<CourseWithProgress>) {
    forall i | 0 <= i < |cs| :: 0 <= cs[i].completedLessons <= cs[i].totalLessons
  }

  datatype Stats = Stats(
    totalCourses: nat,
    activeCourses: nat,
    completedCourses: nat,
    totalLessons: int,
    completedLessons: int,
    inProgressLessons: nat,
    overallProgress: int)

  /** No course is both completed and active, so the two counts fit in the list. */
  lemma {:induction false} StatusCountsBounded(cs: seq<CourseWithProgress>)
    ensures CountStatus(cs, CourseCompleted) + CountStatus(cs, CourseActive) <= |cs|
    decreases |cs|
  {
    if cs != [] {
      StatusCountsBounded(cs[..|cs| - 1]);
    }
  }

  /** At most one "in progress" tick per course. */
  lemma {:induction false} PartlyDoneBounded(cs: seq<CourseWithProgress>)
    ensures CountPartlyDone(cs) <= |cs|
    decreases |cs|
  {
    if cs != [] {
      PartlyDoneBounded(cs[..|cs| - 1]);
    }
  }

  /** Consistent per-course counts add up to consistent totals. */
  lemma {:induction false} SumsOrdered(cs: seq<CourseWithProgress>)
    requires CountsConsistent(cs)
    ensures 0 <= SumCompleted(cs) <= SumTotal(cs)
    decreases |cs|
  {
    if cs != [] {
      var init := cs[..|cs| - 1];
      assert CountsConsistent(init) by {
        forall i | 0 <= i < |init| ensures 0 <= init[i].completedLessons <= init[i].totalLessons {
          assert init[i] == cs[i];
        }
      }
      SumsOrdered(init);
    }
  }

  /** With consistent per-course counts the overall percentage lies in [0, 100]. */
  lemma OverallInRange(cs: seq<CourseWithProgress>)
    ensures CountsConsistent(cs) ==>
      && 0 <= SumCompleted(cs) <= SumTotal(cs)
      && 0 <= RoundedPercent(SumCompleted(cs), SumTotal(cs)) <= 100
  {
    if CountsConsistent(cs) {
      SumsOrdered(cs);
      RoundedPercentInRange(SumCompleted(cs), SumTotal(cs));
    }
  }

  /** The statistics `loadProgress` computes from the enrolled-course list. */
  function Statistics(cs: seq<CourseWithProgress>): (s: Stats)
    ensures s.totalCourses == |cs|
    ensures s.completedCourses + s.activeCourses <= s.totalCourses
    ensures s.inProgressLessons <= s.totalCourses
    ensures s.totalLessons <= 0 ==> s.overallProgress == 0
    ensures s.totalLessons > 0 ==>
      (2 * s.overallProgress - 1) * s.totalLessons <= 200 * s.completedLessons < (2 * s.overallProgress + 1) * s.totalLessons
    ensures CountsConsistent(cs) ==>
      0 <= s.completedLessons <= s.totalLessons && 0 <= s.overallProgress <= 100
  {
    StatusCountsBounded(cs);
    PartlyDoneBounded(cs);
    OverallInRange(cs);
    Stats(
      |cs|,
      CountStatus(cs, CourseActive),
      CountStatus(cs, CourseCompleted),
      SumTotal(cs),
      SumCompleted(cs),
      CountPartlyDone(cs),
      RoundedPercent(SumCompleted(cs), SumTotal(cs)))
  }

  /** The statistics computed in a single pass over the list; the result agrees
      with the separate filters and folds. */
  method ComputeStatistics(cs: seq<CourseWithProgress>) returns (s: Stats)
    ensures s == Statistics(cs)
  {
    var active, completed, partly := 0, 0, 0;
    var total, done := 0, 0;
    var i := 0;
    while i < |cs|
      invariant 0 <= i <= |cs|
      invariant active == CountStatus(cs[..i], CourseActive)
      invariant completed == CountStatus(cs[..i], CourseCompleted)
      invariant partly == CountPartlyDone(cs[..i])
      invariant total == SumTotal(cs[..i])
      invariant done == SumCompleted(cs[..i])
    {
      var c := cs[i];
      assert cs[..i + 1][..i] == cs[..i];
      if c.status == CourseActive { active := active + 1; }
      if c.status == CourseCompleted { completed := completed + 1; }
      if PartlyDone(c) { partly := partly + 1; }
      total := total + c.totalLessons;
      done := done + c.completedLessons;
      i := i + 1;
    }
    assert cs[..i] == cs;
    s := Stats(i, active, completed, total, done, partly, RoundedPercent(done, total));
  }

  /** An exact ratio, for the unrounded bar width. */
  datatype Ratio = Ratio(num: int, den: int)

  /** `getProgressBar`'s `percentage`: `(completed / total) * 100`, or 0 when total is 0. */
  function BarWidth(completed: int, total: int): (w: Ratio)
    ensures w.den > 0
    ensures total <= 0 ==> w.num == 0
    ensures total > 0 ==> w.num * total == 100 * completed * w.den
  {
    if total > 0 then Ratio(100 * completed, total) else Ratio(0, 1)
  }

  /** The label beside a course's bar: its width rounded to a whole percent. */
  function BarLabel(completed: int, total: int): (pct: int)
    ensures var w := BarWidth(completed, total);
      (2 * pct - 1) * w.den <= 2 * w.num < (2 * pct + 1) * w.den
  {
    RoundedPercent(completed, total)
  }

  /** A course with no lessons shows an empty bar labelled 0%. */
  lemma EmptyCourseBar(completed: int)
    ensures BarWidth(completed, 0) == Ratio(0, 1) && BarLabel(completed, 0) == 0
  {
  }

  /** Two of four lessons completed fill half the bar and read 50%. */
  lemma HalfDoneExample()
    ensures BarWidth(2, 4) == Ratio(200, 4) && BarLabel(2, 4) == 50
    ensures Statistics([CourseWithProgress(1, "c", None, 1, 2, 4, CourseActive)]).overallProgress == 50
  {
    var cs := [CourseWithProgress(1, "c", None, 1, 2, 4, CourseActive)];
    assert cs[..0] == [];
  }
}

=== FILE: progress_page.dfy ===
/**
 * The progress page's screens (src/pages/Progress.tsx): the state that
 * `loadProgress` updates and the screen each state renders. The screens are,
 * in the order the page tests them: the spinner, the error screen with its
 * "Try Again" button, the "No Courses Yet" screen and the statistics.
 *
 * `loadProgress` as written sets `loading` but never clears `error`, and no
 * other code clears it. So once a load has failed, "Try Again" can bring the
 * spinner back but never the statistics. `StepAsWritten` models that code.
 * `Step` is the corrected page, whose retry starts from a cleared error, and
 * it is the one the other lemmas here are about.
 */
module ProgressPage {
  import opened Api
  import opened Progress

  /** The message `loadProgress` stores when the request fails. */
  const LoadErrorText := "Failed to load progress data"

  /** The page's state: its `loading`, `error`, `courses` and `stats` hooks. */
  datatype Page = Page(
    loading: bool,
    error: Option<string>,
    courses: seq<CourseWithProgress>,
    stats: Option<Stats>)

  /** The first render: the page starts out loading and has no data yet. */
  const Initial := Page(true, None, [], None)

  /** The steps of one `loadProgress` call: its start, then either the list
      the server answered or a failure. */
  datatype Event = LoadBegin | LoadOk(cs: seq<CourseWithProgress>) | LoadFailed

  datatype Screen =
    | LoadingScreen
    | ErrorScreen(message: string)
    | NoCoursesScreen
    | Dashboard(stats: Stats)

  /** The screen the page renders for a state. */
  function View(p: Page): (s: Screen)
    ensures s.LoadingScreen? <==> p.loading
    ensures s.ErrorScreen? <==> !p.loading && p.error.Some?
    ensures s.ErrorScreen? ==> s.message == p.error.value
    ensures s.NoCoursesScreen? <==> !p.loading && p.error.None? && (p.stats.None? || |p.courses| == 0)
    ensures s.Dashboard? ==> p.stats == Some(s.stats) && |p.courses| > 0
  {
    if p.loading then LoadingScreen
    else if p.error.Some? then ErrorScreen(p.error.value)
    else if p.stats.None? || |p.courses| == 0 then NoCoursesScreen
    else Dashboard(p.stats.value)
  }

  /** The stored statistics always belong to the stored list. */
  predicate Inv(p: Page) {
    match p.stats
    case Some(st) => st == Statistics(p.courses)
    case None => p.courses == []
  }

  /** `loadProgress` as written: a new load leaves an earlier error in place. */
  function StepAsWritten(p: Page, e: Event): (r: Page)
    ensures p.error.Some? ==> r.error.Some?
    ensures r.error.Some? ==> r.error == p.error || r.error == Some(LoadErrorText)
    ensures r.loading <==> e.LoadBegin?
    ensures e.LoadOk? ==> r.courses == e.cs && r.stats == Some(Statistics(e.cs))
    ensures !e.LoadOk? ==> r.courses == p.courses && r.stats == p.stats
  {
    match e
    case LoadBegin => p.(loading := true)
    case LoadOk(cs) => p.(loading := false, courses := cs, stats := Some(Statistics(cs)))
    case LoadFailed => p.(loading := false, error := Some(LoadErrorText))
  }

  /** `loadProgress` with the error cleared when a load starts. */
  function Step(p: Page, e: Event): (r: Page)
    ensures e.LoadBegin? ==> r.loading && r.error.None?
    ensures r.loading <==> e.LoadBegin?
    ensures e.LoadOk? ==> r.error == p.error && r.courses == e.cs && r.stats == Some(Statistics(e.cs))
    ensures e.LoadFailed? ==> r.error == Some(LoadErrorText)
    ensures !e.LoadOk? ==> r.courses == p.courses && r.stats == p.stats
  {
    match e
    case LoadBegin => p.(loading := true, error := None)
    case LoadOk(cs) => p.(loading := false, courses := cs, stats := Some(Statistics(cs)))
    case LoadFailed => p.(loading := false, error := Some(LoadErrorText))
  }

  /** One full `loadProgress` call on the corrected page: the start, then its outcome. */
  function Load(p: Page, outcome: Event): Page {
    Step(Step(p, LoadBegin), outcome)
  }

  /** The same call on the page as written. */
  function LoadAsWritten(p: Page, outcome: Event): Page {
    StepAsWritten(StepAsWritten(p, LoadBegin), outcome)
  }

  lemma InitialInv()
    ensures Inv(Initial) && View(Initial) == LoadingScreen
  {
  }

  /** Both versions of the page keep the statistics in step with the list. */
  lemma StepPreservesInv(p: Page, e: Event)
    requires Inv(p)
    ensures Inv(Step(p, e)) && Inv(StepAsWritten(p, e))
  {
  }

  /** The statistics screen always shows the statistics of the list on the page. */
  lemma DashboardShowsStatistics(p: Page)
    requires Inv(p)
    ensures View(p).Dashboard? ==> View(p).stats == Statistics(p.courses)
    ensures !p.loading && p.error.None? && |p.courses| > 0 ==> View(p) == Dashboard(Statistics(p.courses))
  {
  }

  /** On the corrected page a load ends on the screen its own outcome picks,
      whatever came before: a failure shows the error, an empty list shows
      "No Courses Yet", and any other list shows its statistics. */
  lemma LoadShowsOutcome(p: Page, outcome: Event)
    requires !outcome.LoadBegin?
    ensures outcome.LoadFailed? ==> View(Load(p, outcome)) == ErrorScreen(LoadErrorText)
    ensures outcome.LoadOk? && |outcome.cs| == 0 ==> View(Load(p, outcome)) == NoCoursesScreen
    ensures outcome.LoadOk? && |outcome.cs| > 0 ==> View(Load(p, outcome)) == Dashboard(Statistics(outcome.cs))
  {
    var q := Step(p, LoadBegin);
    assert q.error.None?;
  }

  /** "Try Again" on the corrected page: after a failure, a reload that gets a
      non-empty list shows that list's statistics. */
  lemma RetryShowsNewList(cs: seq<CourseWithProgress>)
    requires |cs| > 0
    ensures var failed := Load(Initial, LoadFailed);
      View(failed) == ErrorScreen(LoadErrorText) &&
      View(Load(failed, LoadOk(cs))) == Dashboard(Statistics(cs))
  {
    LoadShowsOutcome(Initial, LoadFailed);
    LoadShowsOutcome(Load(Initial, LoadFailed), LoadOk(cs));
  }

  /** The page as written: once an error is stored, no reload, whatever it
      answers, leaves the error screen. */
  lemma {:induction false} RetryKeepsErrorAsWritten(p: Page, outcomes: seq<Event>)
    requires p.error.Some? && !p.loading
    requires forall k | 0 <= k < |outcomes| :: !outcomes[k].LoadBegin?
    ensures View(RetriesAsWritten(p, outcomes)).ErrorScreen?
    decreases |outcomes|
  {
    if outcomes != [] {
      var q := LoadAsWritten(p, outcomes[0]);
      assert q.error.Some? && !q.loading;
      RetryKeepsErrorAsWritten(q, outcomes[1..]);
    }
  }

  /** Pressing "Try Again" once per outcome on the page as written. */
  function RetriesAsWritten(p: Page, outcomes: seq<Event>): Page
    decreases |outcomes|
  {
    if outcomes == [] then p else RetriesAsWritten(LoadAsWritten(p, outcomes[0]), outcomes[1..])
  }

  /** The input that shows it: a failed first load, then "Try Again" with the
      server answering one course, renders the error screen again. */
  lemma RetryAfterFailureAsWritten()
    ensures var cs := [CourseWithProgress(1, "c", None, 1, 2, 4, CourseActive)];
      View(LoadAsWritten(LoadAsWritten(Initial, LoadFailed), LoadOk(cs))) == ErrorScreen(LoadErrorText)
  {
  }
}

=== FILE: proxied_image.dfy ===
/**
 * The proxied image component (src/components/ProxiedImage.tsx): a small
 * state machine over `(imageSrc, isLoading, hasError)` driven by a change
 * of `mediaId` and by the browser's load and error events, plus the choice
 * of what is drawn; and the background-image variant's URL choice.
 */
module ProxiedImage {
  import opened Api
  import opened MediaProxy

  const DefaultFallback: string := "/placeholder-image.png"

  /** The `fallbackSrc` prop: its default applies only when the prop is left out. */
  function FallbackSrc(prop: Option<string>): string {
    match prop
    case None => DefaultFallback
    case Some(f) => f
  }

  datatype ImageState = ImageState(imageSrc: string, isLoading: bool, hasError: bool)

  const Initial: ImageState := ImageState("", true, false)

  /** The effect that runs when `mediaId` changes. A falsy id marks an error and
      keeps whatever source was set before. */
  function OnMediaId(base: string, s: ImageState, id: MediaId): (r: ImageState)
    ensures !Truthy(id) ==> r.hasError && !r.isLoading && r.imageSrc == s.imageSrc
    ensures Truthy(id) ==> r.isLoading && !r.hasError && IsProxyUrl(r.imageSrc)
    ensures Truthy(id) ==> r.imageSrc == ImageProxyUrl(base, id, None)
  {
    if !Truthy(id) then s.(hasError := true, isLoading := false)
    else
      ProxyUrlIsRecognised(base, id);
      ImageState(ImageProxyUrl(base, id, None), true, false)
  }

  /** `handleLoad`. */
  function OnLoad(s: ImageState): (r: ImageState)
    ensures !r.isLoading && r.hasError == s.hasError && r.imageSrc == s.imageSrc
  {
    s.(isLoading := false)
  }

  /** `handleError`: switch to the fallback source. */
  function OnError(s: ImageState, fallback: string): (r: ImageState)
    ensures !r.isLoading && r.hasError && r.imageSrc == fallback
  {
    ImageState(fallback, false, true)
  }

  datatype Event = MediaIdChanged(id: MediaId) | ImageLoaded | ImageFailed

  function Step(base: string, fallback: string, s: ImageState, e: Event): ImageState {
    match e
    case MediaIdChanged(id) => OnMediaId(base, s, id)
    case ImageLoaded => OnLoad(s)
    case ImageFailed => OnError(s, fallback)
  }

  /** The state after a sequence of events, in order. */
  function Run(base: string, fallback: string, s: ImageState, es: seq<Event>): ImageState
    decreases |es|
  {
    if es == [] then s else Run(base, fallback, Step(base, fallback, s, es[0]), es[1..])
  }

  /** What the component draws: nothing at all, or a frame with an optional
      spinner, the image (hidden while loading) and an optional notice. */
  datatype View =
    | Nothing
    | Frame(spinner: bool, src: string, hidden: bool, notAvailable: bool)

  function Render(s: ImageState, id: MediaId, fallback: string): (v: View)
    ensures v.Nothing? <==> !Truthy(id) && fallback == ""
    ensures v.Frame? ==> v.src == (if s.imageSrc != "" then s.imageSrc else fallback)
    ensures v.Frame? ==> (v.notAvailable <==> s.hasError && fallback == "")
    ensures v.Frame? ==> v.spinner == s.isLoading == v.hidden
  {
    if !Truthy(id) && fallback == "" then Nothing
    else Frame(s.isLoading, if s.imageSrc != "" then s.imageSrc else fallback, s.isLoading, s.hasError && fallback == "")
  }

  /** With the `fallbackSrc` prop left out the component always draws a frame and
      never the "not available" notice; an explicit empty prop is kept as given,
      so a falsy id then draws nothing. */
  lemma DefaultFallbackAlwaysDraws(s: ImageState, id: MediaId)
    ensures Render(s, id, FallbackSrc(None)).Frame?
    ensures !Render(s, id, FallbackSrc(None)).notAvailable
    ensures !Truthy(id) ==> Render(s, id, FallbackSrc(Some(""))) == Nothing
  {
  }

  /** From the initial state, an error is never shown together with the spinner. */
  lemma {:induction false} ErrorNeverWhileLoading(base: string, fallback: string, s: ImageState, es: seq<Event>)
    requires s.hasError ==> !s.isLoading
    ensures var r := Run(base, fallback, s, es); r.hasError ==> !r.isLoading
    decreases |es|
  {
    if es != [] {
      ErrorNeverWhileLoading(base, fallback, Step(base, fallback, s, es[0]), es[1..]);
    }
  }

  /** Once a truthy id has been set, later load and error events leave the source
      either the proxy URL of that id (no error yet) or the fallback (after an error). */
  lemma {:induction false} SourceAfterTruthyId(base: string, fallback: string, s: ImageState, id: MediaId, es: seq<Event>)
    requires Truthy(id)
    requires forall k | 0 <= k < |es| :: !es[k].MediaIdChanged?
    ensures var r := Run(base, fallback, OnMediaId(base, s, id), es);
      && (!r.hasError ==> r.imageSrc == MediaProxyUrl(base, id))
      && (r.hasError ==> r.imageSrc == fallback && !r.isLoading)
    decreases |es|
  {
    if es != [] {
      var t := Step(base, fallback, OnMediaId(base, s, id), es[0]);
      SourceAfterTruthyIdFrom(base, fallback, t, id, es[1..]);
    }
  }

  /** The same invariant, carried from any state that already satisfies it. */
  lemma {:induction false} SourceAfterTruthyIdFrom(base: string, fallback: string, s: ImageState, id: MediaId, es: seq<Event>)
    requires forall k | 0 <= k < |es| :: !es[k].MediaIdChanged?
    requires !s.hasError ==> s.imageSrc == MediaProxyUrl(base, id)
    requires s.hasError ==> s.imageSrc == fallback && !s.isLoading
    ensures var r := Run(base, fallback, s, es);
      && (!r.hasError ==> r.imageSrc == MediaProxyUrl(base, id))
      && (r.hasError ==> r.imageSrc == fallback && !r.isLoading)
    decreases |es|
  {
    if es != [] {
      SourceAfterTruthyIdFrom(base, fallback, Step(base, fallback, s, es[0]), id, es[1..]);
    }
  }

  /** When the id turns falsy the previous source is kept, so a non-empty earlier
      proxy URL is still drawn although the error flag is set. */
  lemma StaleSourceAfterFalsyId(base: string, fallback: string, id: MediaId)
    requires Truthy(id)
    ensures var s := OnMediaId(base, OnMediaId(base, Initial, id), NumberId(0));
      && s.hasError
      && s.imageSrc == MediaProxyUrl(base, id)
      && (fallback != "" ==> Render(s, NumberId(0), fallback) == Frame(false, MediaProxyUrl(base, id), false, false))
  {
  }

  /** `ProxiedBackgroundImage`'s effect: only a truthy id replaces the URL. */
  function BackgroundUrl(base: string, current: string, id: MediaId): (u: string)
    ensures Truthy(id) ==> u == ImageProxyUrl(base, id, None) && u != ""
    ensures !Truthy(id) ==> u == current
  {
    if Truthy(id) then ImageProxyUrl(base, id, None) else current
  }

  /** The CSS `backgroundImage`: absent while the URL is empty. */
  function BackgroundImage(url: string): (css: Option<string>)
    ensures css.None? <==> url == ""
    ensures css.Some? ==> css.value == "url(" + url + ")"
  {
    if url != "" then Some("url(" + url + ")") else None
  }

  /** A background component that has only ever seen falsy ids draws no background image. */
  lemma {:induction false} NoBackgroundWithoutTruthyId(base: string, current: string, ids: seq<MediaId>)
    requires current == ""
    requires forall k | 0 <= k < |ids| :: !Truthy(ids[k])
    ensures BackgroundImage(BackgroundAfter(base, current, ids)).None?
    decreases |ids|
  {
    if ids != [] {
      NoBackgroundWithoutTruthyId(base, BackgroundUrl(base, current, ids[0]), ids[1..]);
    }
  }

  function BackgroundAfter(base: string, current: string, ids: seq<MediaId>): string
    decreases |ids|
  {
    if ids == [] then current else BackgroundAfter(base, BackgroundUrl(base, current, ids[0]), ids[1..])
  }
}

=== FILE: syllabus.dfy ===
/**
 * The syllabus page (src/pages/Syllabus.tsx): gating of lesson clicks on the
 * server's `canOpen`, the set of expanded modules, the "Continue" action, the
 * current lesson's title, the status and type icons, and which header
 * notices and actions appear for each enrollment status.
 *
 * The outline is taken as received: the page never derives `canOpen`,
 * `isCurrent` or `status`, it only acts on them.
 */
module Syllabus {
  import opened Api
  import opened WebApp
  import Outline

  const LockedMessage: string :=
    "This lesson is locked. Complete previous lessons or wait for the scheduled unlock."
  const NotYetMessage: string := "You cannot access this lesson yet."

  /** `handleLessonClick`: an openable lesson navigates to its page; any other
      lesson only explains why, with the locked text exactly for a locked one. */
  function LessonClick(tg: bool, courseId: string, l: LessonOutlineItem): (r: seq<Effect>)
    ensures HasNavigation(r) <==> l.canOpen
    ensures forall k | 0 <= k < |r| :: r[k].NavigateTo? ==> r[k].path == LessonPath(courseId, l.id)
    ensures !HasServerCall(r)
    ensures tg && !l.canOpen ==> |r| == 1 && r[0].ShowAlert?
    ensures tg && !l.canOpen ==> (r[0].message == LockedMessage <==> l.status == Locked)
  {
    if !l.canOpen then
      Alert(tg, if l.status == Locked then LockedMessage else NotYetMessage)
    else
      var r := [NavigateTo(LessonPath(courseId, l.id))];
      assert r[0].NavigateTo?;
      r
  }

  /** If the server keeps its promise that locked lessons cannot be opened,
      clicking any lesson of the outline navigates only when it is not locked. */
  lemma LockedLessonNeverOpens(tg: bool, courseId: string, o: CourseOutline, i: nat)
    requires Outline.LockedNeverOpens(Outline.AllLessons(o.modules))
    requires i < |Outline.AllLessons(o.modules)|
    ensures var l := Outline.AllLessons(o.modules)[i];
      l.status == Locked ==> !HasNavigation(LessonClick(tg, courseId, l))
  {
  }

  /** The gate is the server's `canOpen` alone: a row that claims both locked and
      openable is navigated to. */
  lemma GateTrustsServer(courseId: string, l: LessonOutlineItem)
    requires l.status == Locked && l.canOpen
    ensures LessonClick(true, courseId, l) == [NavigateTo(LessonPath(courseId, l.id))]
  {
  }

  /** A navigation caused by a click leads to the page of that lesson and no other. */
  lemma ClickTargetsThatLesson(tg: bool, courseId: string, l: LessonOutlineItem, m: LessonOutlineItem)
    requires l.canOpen && m.canOpen
    requires LessonClick(tg, courseId, l) == LessonClick(tg, courseId, m)
    ensures l.id == m.id
  {
    LessonPathInjective(courseId, l.id, m.id);
  }

  /** `toggleModule(id)`: flips the membership of `id` and of nothing else. */
  function Toggle(expanded: set<int>, id: int): (r: set<int>)
    ensures id in r <==> id !in expanded
    ensures forall x | x != id :: x in r <==> x in expanded
  {
    if id in expanded then expanded - {id} else expanded + {id}
  }

  /** Toggling the same module twice restores the expanded set. */
  lemma ToggleTwice(expanded: set<int>, id: int)
    ensures Toggle(Toggle(expanded, id), id) == expanded
  {
  }

  /** Toggles of different modules commute. */
  lemma ToggleCommutes(expanded: set<int>, a: int, b: int)
    ensures Toggle(Toggle(expanded, a), b) == Toggle(Toggle(expanded, b), a)
  {
  }

  /** The ids of the outline's modules: the expanded set right after a load. */
  function ModuleIds(ms: seq<ModuleOutlineItem>): (r: set<int>)
    ensures forall i | 0 <= i < |ms| :: ms[i].id in r
    ensures forall x | x in r :: exists i | 0 <= i < |ms| :: ms[i].id == x
    decreases |ms|
  {
    if ms == [] then {}
    else
      var rest := ModuleIds(ms[1..]);
      assert forall x | x in rest :: exists i | 1 <= i < |ms| :: ms[i].id == x by {
        forall x | x in rest ensures exists i | 1 <= i < |ms| :: ms[i].id == x {
          var j :| 0 <= j < |ms[1..]| && ms[1..][j].id == x;
          assert ms[j + 1].id == x;
        }
      }
      {ms[0].id} + rest
  }

  /** The expanded set after a load attempt: every module expanded on success,
      unchanged when the outline could not be fetched. */
  function ExpandedAfterLoad(expanded: set<int>, fetched: Option<CourseOutline>): (r: set<int>)
    ensures fetched.None? ==> r == expanded
    ensures fetched.Some? ==> forall m | m in fetched.value.modules :: m.id in r
    ensures fetched.Some? ==> forall x | x in r :: exists m | m in fetched.value.modules :: m.id == x
  {
    match fetched
    case None => expanded
    case Some(o) =>
      var r := ModuleIds(o.modules);
      assert forall x | x in r :: exists m | m in o.modules :: m.id == x by {
        forall x | x in r ensures exists m | m in o.modules :: m.id == x {
          var i :| 0 <= i < |o.modules| && o.modules[i].id == x;
          assert o.modules[i] in o.modules;
        }
      }
      r
  }

  /** After a load every module is shown expanded, and a module toggled once is collapsed. */
  lemma ToggleAfterLoadCollapses(o: CourseOutline, i: nat)
    requires i < |o.modules|
    ensures o.modules[i].id !in Toggle(ExpandedAfterLoad({}, Some(o)), o.modules[i].id)
  {
  }

  /** `handleContinue`: navigates only when the outline names a (truthy) current lesson. */
  function Continue(courseId: string, o: Option<CourseOutline>): (r: seq<Effect>)
    ensures HasNavigation(r) <==> o.Some? && TruthyNumber(o.value.currentLessonId)
    ensures HasNavigation(r) ==> r == [NavigateTo(LessonPath(courseId, o.value.currentLessonId.value))]
    ensures !HasNavigation(r) ==> r == []
  {
    if o.None? || !TruthyNumber(o.value.currentLessonId) then []
    else
      var r := [NavigateTo(LessonPath(courseId, o.value.currentLessonId.value))];
      assert r[0].NavigateTo?;
      r
  }

  /** `getCurrentLessonTitle`. */
  function CurrentLessonTitle(o: CourseOutline): Option<string>
  {
    if !TruthyNumber(o.currentLessonId) then None
    else match Outline.FindLesson(o.modules, o.currentLessonId.value)
      case None => None
      case Some(l) => Some(l.title)
  }

  /** The title is that of the first lesson, in module order, whose id is the
      current lesson id; there is none when that id is falsy or matches no lesson. */
  lemma CurrentLessonTitleIsFirstMatch(o: CourseOutline)
    ensures CurrentLessonTitle(o).None? <==>
      !TruthyNumber(o.currentLessonId) ||
      forall l | l in Outline.AllLessons(o.modules) :: l.id != o.currentLessonId.value
    ensures CurrentLessonTitle(o).Some? ==>
      var ls := Outline.AllLessons(o.modules);
      exists k | 0 <= k < |ls| ::
        && ls[k].id == o.currentLessonId.value
        && ls[k].title == CurrentLessonTitle(o).value
        && forall j | 0 <= j < k :: ls[j].id != o.currentLessonId.value
  {
    if TruthyNumber(o.currentLessonId) {
      var id := o.currentLessonId.value;
      Outline.FindLessonIsFirstInOutline(o.modules, id);
      var ls := Outline.AllLessons(o.modules);
      match Outline.IndexOf(ls, id)
      case None =>
      case Some(k) =>
        assert ls[k].title == CurrentLessonTitle(o).value;
    }
  }

  datatype StatusIcon = LockIcon | CheckIcon | ClockIcon | CircleIcon

  /** `getStatusIcon`: each status has its own icon. */
  function StatusIconOf(s: LessonStatus): (icon: StatusIcon)
    ensures icon == LockIcon <==> s == Locked
    ensures icon == CheckIcon <==> s == Completed
    ensures icon == ClockIcon <==> s == InProgress
    ensures icon == CircleIcon <==> s == NotStarted
  {
    match s
    case Locked => LockIcon
    case Completed => CheckIcon
    case InProgress => ClockIcon
    case NotStarted => CircleIcon
  }

  datatype TypeIcon = TextIcon | VideoIcon | PaperclipIcon | HelpIcon

  /** `getTypeIcon`: the four known types have their own icon, any other type the text icon. */
  function TypeIconOf(t: LessonType): (icon: TypeIcon)
    ensures icon == VideoIcon <==> t == Video
    ensures icon == PaperclipIcon <==> t == File
    ensures icon == HelpIcon <==> t == Quiz
    ensures icon == TextIcon <==> t == Text || t.OtherType?
  {
    match t
    case Text => TextIcon
    case Video => VideoIcon
    case File => PaperclipIcon
    case Quiz => HelpIcon
    case OtherType(_) => TextIcon
  }

  /** `getTypeIcon` on the `type` string itself: each known name has its own
      icon, and every other string gets the text icon. */
  lemma TypeIconOfName(s: string)
    ensures TypeIconOf(ParseLessonType(s)) == VideoIcon <==> s == "video"
    ensures TypeIconOf(ParseLessonType(s)) == PaperclipIcon <==> s == "file"
    ensures TypeIconOf(ParseLessonType(s)) == HelpIcon <==> s == "quiz"
    ensures TypeIconOf(ParseLessonType(s)) == TextIcon <==> s !in {"video", "file", "quiz"}
  {
  }

  /** The status icon tells the status back: distinct statuses never share an icon. */
  lemma StatusIconInjective(a: LessonStatus, b: LessonStatus)
    requires StatusIconOf(a) == StatusIconOf(b)
    ensures a == b
  {
  }

  /** "Currently at: {title}" or "Course completed!", shown to an active learner. */
  datatype StatusLine = CurrentlyAt(title: string) | CourseCompletedLine

  /** The header as drawn. `strayZero` is the "0" React renders for
      `{active && currentLessonId && <button/>}` when the current lesson id is 0. */
  datatype Header = Header(
    statusLine: Option<StatusLine>,
    blockedNotice: bool,
    notEnrolledNotice: bool,
    continueButton: bool,
    reviewButton: bool,
    strayZero: bool)

  /** The header's notices and actions for an outline. */
  function HeaderFor(o: CourseOutline): (h: Header)
    ensures h.continueButton <==> o.enrollmentStatus == Active && TruthyNumber(o.currentLessonId)
    ensures h.reviewButton <==> o.enrollmentStatus == Active && !TruthyNumber(o.currentLessonId)
    ensures h.blockedNotice <==> o.enrollmentStatus == Blocked
    ensures h.notEnrolledNotice <==> o.enrollmentStatus == NotEnrolled
    ensures h.statusLine.Some? <==> o.enrollmentStatus == Active
    ensures h.statusLine == Some(CourseCompletedLine) <==>
      o.enrollmentStatus == Active && !TruthyText(CurrentLessonTitle(o))
    ensures h.statusLine.Some? && h.statusLine.value.CurrentlyAt? ==>
      CurrentLessonTitle(o) == Some(h.statusLine.value.title) && h.statusLine.value.title != ""
    ensures h.strayZero <==> o.enrollmentStatus == Active && o.currentLessonId == Some(0)
  {
    var active := o.enrollmentStatus == Active;
    var title := CurrentLessonTitle(o);
    Header(
      if !active then None
      else if TruthyText(title) then Some(CurrentlyAt(title.value))
      else Some(CourseCompletedLine),
      o.enrollmentStatus == Blocked,
      o.enrollmentStatus == NotEnrolled,
      active && TruthyNumber(o.currentLessonId),
      active && !TruthyNumber(o.currentLessonId),
      active && NumberGuardText(o.currentLessonId, "") == "0")
  }

  /** For an active learner exactly one of "Continue" and "Review" appears; for
      any other enrollment status neither does, and a completed enrollment
      shows no notice either. */
  lemma HeaderActionsExclusive(o: CourseOutline)
    ensures var h := HeaderFor(o);
      (h.continueButton || h.reviewButton) <==> o.enrollmentStatus == Active
    ensures var h := HeaderFor(o); !(h.continueButton && h.reviewButton)
    ensures o.enrollmentStatus == EnrollmentCompleted ==>
      HeaderFor(o) == Header(None, false, false, false, false, false)
  {
  }

  /** The "Continue" button is shown exactly when pressing it navigates. */
  lemma ContinueButtonAgreesWithHandler(courseId: string, o: CourseOutline)
    requires o.enrollmentStatus == Active
    ensures HeaderFor(o).continueButton <==> HasNavigation(Continue(courseId, Some(o)))
  {
  }

  /** When the first lesson row with the current id has a non-empty title, the
      header shows that title together with the "Continue" button. */
  lemma CurrentLessonShown(o: CourseOutline)
    requires o.enrollmentStatus == Active && TruthyNumber(o.currentLessonId)
    requires Outline.IndexOf(Outline.AllLessons(o.modules), o.currentLessonId.value).Some?
    requires Outline.AllLessons(o.modules)[Outline.IndexOf(Outline.AllLessons(o.modules), o.currentLessonId.value).value].title != ""
    ensures var ls := Outline.AllLessons(o.modules);
      HeaderFor(o).statusLine == Some(CurrentlyAt(ls[Outline.IndexOf(ls, o.currentLessonId.value).value].title))
    ensures HeaderFor(o).continueButton && !HeaderFor(o).strayZero
  {
    Outline.FindLessonIsFirstInOutline(o.modules, o.currentLessonId.value);
  }

  /** A first matching row whose title is empty reads "Course completed!",
      although the "Continue" button is still offered. */
  lemma EmptyTitleReadsCompleted(o: CourseOutline)
    requires o.enrollmentStatus == Active && TruthyNumber(o.currentLessonId)
    requires Outline.IndexOf(Outline.AllLessons(o.modules), o.currentLessonId.value).Some?
    requires Outline.AllLessons(o.modules)[Outline.IndexOf(Outline.AllLessons(o.modules), o.currentLessonId.value).value].title == ""
    ensures HeaderFor(o).statusLine == Some(CourseCompletedLine) && HeaderFor(o).continueButton
  {
    Outline.FindLessonIsFirstInOutline(o.modules, o.currentLessonId.value);
  }

  /** A truthy current lesson id that matches no lesson row gives "Course
      completed!" next to the "Continue" button. */
  lemma DanglingCurrentLesson(o: CourseOutline)
    requires o.enrollmentStatus == Active && TruthyNumber(o.currentLessonId)
    requires forall l | l in Outline.AllLessons(o.modules) :: l.id != o.currentLessonId.value
    ensures HeaderFor(o).statusLine == Some(CourseCompletedLine) && HeaderFor(o).continueButton
  {
    CurrentLessonTitleIsFirstMatch(o);
  }

  /** An active learner whose current lesson id is 0 sees "Review Course" with a
      stray "0" beside it, and no "Continue" button. */
  lemma ZeroCurrentLessonId(o: CourseOutline)
    requires o.enrollmentStatus == Active && o.currentLessonId == Some(0)
    ensures HeaderFor(o).reviewButton && HeaderFor(o).strayZero && !HeaderFor(o).continueButton
    ensures HeaderFor(o).statusLine == Some(CourseCompletedLine)
  {
  }
}

=== FILE: webapp.dfy ===
/**
 * The outside world as the pages see it: Telegram WebApp calls, router
 * navigation and REST calls, each reduced to an abstract effect that a
 * handler emits. The handlers themselves are pure functions of the page
 * state and of what the outside world answered.
 */
module WebApp {
  import opened Api
  import opened Decimal

  datatype Effect =
    | ShowAlert(message: string)
    | ShowPopup(title: string, message: string)
    | CloseApp
    | NavigateTo(path: string)
    | CompleteLessonCall(lessonId: int)
    | SubmitQuizCall(lessonId: int, answers: seq<int>)
    | RetakeQuizCall(lessonId: int)
    | RequestVideoCall(lessonId: int)

  /** `tg?.showAlert(message)`: outside Telegram nothing is shown. */
  function Alert(tg: bool, message: string): seq<Effect>
  {
    if tg then [ShowAlert(message)] else []
  }

  /** The text React draws for `{n && text}` with an optional number `n`:
      nothing for `null` or `undefined`, the number itself for 0 (a falsy
      number is still rendered), and `text` otherwise. */
  function NumberGuardText(n: Option<int>, text: string): (r: string)
    ensures n.None? ==> r == ""
    ensures n == Some(0) ==> r == "0"
    ensures n.Some? && n.value != 0 ==> r == text
  {
    match n
    case None => ""
    case Some(k) => if k == 0 then "0" else text
  }

  predicate HasNavigation(es: seq<Effect>) {
    exists i | 0 <= i < |es| :: es[i].NavigateTo?
  }

  predicate HasServerCall(es: seq<Effect>) {
    exists i | 0 <= i < |es| ::
      es[i].CompleteLessonCall? || es[i].SubmitQuizCall? || es[i].RetakeQuizCall? || es[i].RequestVideoCall?
  }

  /** `/courses/{courseId}`, with the route parameter as written in the address. */
  function CoursePath(courseId: string): string {
    "/courses/" + courseId
  }

  function SyllabusPath(courseId: string): string {
    CoursePath(courseId) + "/syllabus"
  }

  /** `/courses/{courseId}/lessons/{lessonId}`. */
  function LessonPath(courseId: string, lessonId: int): string {
    CoursePath(courseId) + "/lessons/" + IntToString(lessonId)
  }

  /** Within one course, the lesson path names exactly one lesson id. */
  lemma LessonPathInjective(courseId: string, a: int, b: int)
    requires LessonPath(courseId, a) == LessonPath(courseId, b)
    ensures a == b
  {
    var prefix := CoursePath(courseId) + "/lessons/";
    assert LessonPath(courseId, a)[|prefix|..] == IntToString(a);
    assert LessonPath(courseId, b)[|prefix|..] == IntToString(b);
    IntToStringInjective(a, b);
  }
}
